=== FILE: README.md ===
# Image operations: a Dafny model of the two-stage download/filter scheduler

The system is an iOS list screen. It shows one row per photo of a JSON
manifest and fetches each photo in the background, then applies a sepia
filter to it. Every photo record moves through a small lifecycle
(`new` → `downloaded` → `filtered`, or `new` → `failed`). Two operation
queues, each running one operation at a time, do the work: one downloads and
one filters. Per stage, a ledger maps a row to the operation submitted for it.
The list controller:

- starts the stage a record needs when its cell is displayed, unless the table
  is scrolling;
- suspends both queues while the user drags;
- on scroll end, reconciles in-flight work with the visible rows. It cancels
  the work of rows that went off screen and starts work for visible rows that
  have none.

The model is functional. Every entity is an immutable datatype and every
operation is a pure function of the state. Inputs the program gets from the
outside world are explicit parameters:

- the cancellation flag an operation sees;
- the result of fetching a URL;
- the result of the Core Image pipeline;
- the visible rows;
- the order in which a `Set` is iterated.

| file | module | contents |
|---|---|---|
| `records.dfy` | `Records` | record lifecycle; the download and filtration bodies |
| `operations.dfy` | `Operations` | operation queues (cap 1, suspension, cooperative cancellation) and the per-stage ledgers |
| `scheduler.dfy` | `Scheduler` | the controller state; dispatch of one row; the body, completion and main-queue steps; suspension; the invariant `Valid` and its preservation |
| `reconciliation.dfy` | `Reconciliation` | `loadImagesForVisibleCells` and its properties |
| `events.dfy` | `Events` | table and scroll callbacks; the whole system as a state machine (`Step`, `Run`); the reachability theorem |
| `findings.dfy` | `Findings` | the main-queue completion block as the source writes it, and a run that breaks it |

The system is a state machine over `Scheduler.Controller`. These steps can
interleave freely:

- main-thread callbacks;
- a queue admitting its next operation;
- a running operation executing its body;
- the same operation then running its completion block on its own thread;
- the main dispatch queue running a block that a completion scheduled.

A cancellation can land between an operation's body and its completion
block. In that case the body may already have written the record, yet no
main-queue block is scheduled.

`Events.Reachable` is the main result. Take any sequence of events after the
manifest is loaded:

- the controller satisfies `Valid`;
- no row has two uncancelled operations in the same stage;
- every ledger entry names work that still exists: an uncancelled queued
  operation of its row, or an operation whose main-queue block is pending and
  will remove the entry. With the first point, a ledger holds exactly the rows
  with work in flight, and no entry is left behind to keep a row from being
  started again;
- every record keeps its name and URL.

`Events.RunValid` adds that, from any controller satisfying `Valid`, no
record's state moves backwards during a run.

In the model, where each operation body is one atomic step, these results
need one change to the source:

- A completion's main-queue block may remove a row's ledger entry only if that
  entry still names the block's own operation.
- The source removes the entry unconditionally.
- See "## Findings".

The change does not make the threaded program safe. A body can still be
cancelled after its last checkpoint and before its write, and that window
stays open; see `Events.RunValid` under "## Left out".

## Model

| member | source | states |
|---|---|---|
| Records.NewRecord | ImageOperationPOC/Operation/ImageOperations.swift:19-29 | a new record keeps the given name and URL, is in state `new`, shows the placeholder image, and can still reach every state |
| Records.AdvancesIsClosure | ImageOperationPOC/Operation/ImageOperations.swift:10-12 | the "moves forward" relation is exactly the paths of zero, one or two lifecycle transitions, and no longer path exists |
| Records.DownloadMain | ImageOperationPOC/Operation/ImageOperations.swift:56-73 | cancellation before or after the fetch, or a failed fetch, leaves the record untouched, so a new record stays new and can be retried; otherwise empty data fails the record with the failure image and non-empty data makes it downloaded with the decoded image; started on a new record it follows one lifecycle edge or none |
| Records.ApplySepiaFilter | ImageOperationPOC/Operation/ImageOperations.swift:97-123 | cancellation at either checkpoint yields no image; an image comes back exactly when PNG data exists, the filter exists, rendering succeeds and no cancellation was seen, and it is the rendered one |
| Records.FilterMain | ImageOperationPOC/Operation/ImageOperations.swift:83-95 | only a downloaded, uncancelled record is changed, and only to filtered with the rendered image; new, filtered and failed records are never touched; a record that stays downloaded is unchanged; the result is filtered exactly when it already was or the filter succeeded; the record never moves backwards |
| Operations.NewPendingOperations | ImageOperationPOC/Operation/ImageOperations.swift:31-47 | both ledgers and both queues start empty, unsuspended and idle |
| Operations.CancelOperations | ImageOperationPOC/ViewController/ListViewController.swift:213-224 | cancelling keeps every operation in place with its identity and row, and marks exactly the named ones (plus those already cancelled) as cancelled |
| Operations.AddOperation | ImageOperationPOC/ViewController/ListViewController.swift:166 | a submitted operation joins the end of the queue behind every waiting one; the running count, suspension and the running operation's phase are unchanged |
| Operations.FinishHead | ImageOperationPOC/Operation/ImageOperations.swift:33-38 | with one slot, the operation that leaves the queue is its oldest; the rest keep their order, one fewer operation runs, and the next one has not yet run its body |
| Operations.StartNext | ImageOperationPOC/Operation/ImageOperations.swift:33-38 | a queue admits one more operation exactly when it is not suspended, runs fewer than `maxConcurrentOperationCount` (1) and has a waiting operation; a suspended queue is unchanged |
| Operations.SetSuspended | ImageOperationPOC/ViewController/ListViewController.swift:188-196 | both queues get the flag; ledgers, queued operations and running counts are untouched |
| Scheduler.Load | ImageOperationPOC/ViewController/ListViewController.swift:94-100 | one new record with the placeholder per manifest entry, in order, with nothing in flight; the result satisfies the system invariant |
| Scheduler.StartDownload | ImageOperationPOC/ViewController/ListViewController.swift:150-167 | a row that already has a download is left alone; otherwise exactly one fresh uncancelled download for the row joins the end of the download queue and becomes its ledger entry; nothing else changes; afterwards the row has a download entry |
| Scheduler.StartFiltration | ImageOperationPOC/ViewController/ListViewController.swift:169-186 | the same for the filtration ledger and queue |
| Scheduler.StartOperation | ImageOperationPOC/ViewController/ListViewController.swift:139-148 | a new record gets a download, a downloaded one a filtration, and a filtered or failed record changes nothing |
| Scheduler.StartOperationValid | ImageOperationPOC/ViewController/ListViewController.swift:150-153 | dispatching a row keeps the system invariant: the duplicate guard never lets a second live operation in |
| Scheduler.NoDuplicateLiveOperation | ImageOperationPOC/ViewController/ListViewController.swift:151-153 | in a controller satisfying the invariant, no two uncancelled operations of the same stage are for the same row |
| Scheduler.CompletionBlock | ImageOperationPOC/ViewController/ListViewController.swift:156-163 | a cancelled operation's completion has no effect at all; an uncancelled one schedules exactly one main-queue block for its stage, row and operation |
| Scheduler.RunBody | ImageOperationPOC/Operation/ImageOperations.swift:56-95 | the running operation's body marks it as returned, changes nothing if cancelled, changes at most its own record and never that record's name or URL; a filtration never moves the record backwards, and a download does not when it starts on a new record |
| Scheduler.CompleteRunning | ImageOperationPOC/ViewController/ListViewController.swift:156-158 | the operation leaves its queue; its completion schedules a main-queue block exactly when the operation is not cancelled at that moment; ledgers and records are untouched |
| Scheduler.RunMainBlock | ImageOperationPOC/ViewController/ListViewController.swift:159-162 | the oldest main-queue block removes its row from its stage's ledger when the entry is still its own operation, and otherwise leaves the ledger alone; the row is reloaded either way; queues and records are untouched |
| Scheduler.RunBodyValid | ImageOperationPOC/Operation/ImageOperations.swift:56-95 | running a body keeps the invariant and moves no record backwards |
| Scheduler.CompleteRunningValid | ImageOperationPOC/ViewController/ListViewController.swift:156-163 | a completion keeps the invariant; an entry whose operation leaves the queue is then accounted for by the block that operation schedules |
| Scheduler.RunMainBlockValid | ImageOperationPOC/ViewController/ListViewController.swift:159-162 | a main-queue block keeps the invariant, including that every remaining ledger entry still has an uncancelled queued operation or a pending block behind it |
| Scheduler.SuspendAllOperations | ImageOperationPOC/ViewController/ListViewController.swift:188-191 | both queues are suspended; nothing is cancelled, dequeued or removed from a ledger |
| Scheduler.ResumeAllOperations | ImageOperationPOC/ViewController/ListViewController.swift:193-196 | both queues are resumed; nothing else changes |
| Scheduler.Admit | ImageOperationPOC/Operation/ImageOperations.swift:33-38 | a queue starts its next operation exactly when it is unsuspended and idle and has one waiting; a suspended queue admits nothing |
| Reconciliation.CancelRows | ImageOperationPOC/ViewController/ListViewController.swift:213-224 | for the given rows both ledger entries are dropped and the operations they named are cancelled; nothing else changes, and no rows means no change |
| Reconciliation.CancelRowsCancels | ImageOperationPOC/ViewController/ListViewController.swift:213-224 | under the invariant, an operation ends up cancelled exactly when it already was or its row is among the cancelled rows |
| Reconciliation.StartAll | ImageOperationPOC/ViewController/ListViewController.swift:226-229 | `startOperation` for each row of the loop never touches a record, the main queue or the reloads, and changes nothing when every listed record is filtered or failed |
| Reconciliation.StartAllExtends | ImageOperationPOC/ViewController/ListViewController.swift:226-229 | calling `startOperation` for each row in turn keeps every existing entry and queued operation, and adds an entry exactly for the listed rows whose record is in the state the stage starts from |
| Reconciliation.Reconcile | ImageOperationPOC/ViewController/ListViewController.swift:203-229 | afterwards no row outside the visible ones is in flight, and every visible row with nothing in flight has a filtered or failed record; a controller already in that condition is left exactly as it is |
| Reconciliation.ReconcileLedger | ImageOperationPOC/ViewController/ListViewController.swift:210-229 | a visible row already in flight keeps exactly its entries; a visible row with nothing in flight gets an entry in a stage exactly when its record is in the state that stage starts from |
| Reconciliation.ReconcileCancelsExactlyInvisible | ImageOperationPOC/ViewController/ListViewController.swift:213-224 | under the invariant, reconciliation cancels exactly the operations of rows that are no longer visible, keeps the others' identities, rows and order, and leaves every uncancelled operation on a visible row |
| Reconciliation.ReconcileIdempotent | ImageOperationPOC/ViewController/ListViewController.swift:198-230 | a second reconciliation with the same visible rows and nothing in between changes nothing, in whatever order the rows are visited |
| Reconciliation.LoadImagesForVisibleCells | ImageOperationPOC/ViewController/ListViewController.swift:198-201 | with no visible rows reported nothing happens; otherwise the reconciliation's guarantees hold |
| Reconciliation.ReconcileValid | ImageOperationPOC/ViewController/ListViewController.swift:198-230 | reconciliation keeps the invariant |
| Events.CellForRowAt | ImageOperationPOC/ViewController/ListViewController.swift:40-52 | while the table is dragged or decelerating, or when the record is filtered or failed, displaying a cell starts nothing; otherwise the row is in flight afterwards |
| Events.ScrollViewWillBeginDragging | ImageOperationPOC/ViewController/ListViewController.swift:120-122 | dragging suspends both queues without touching queued work or the ledgers |
| Events.ScrollViewDidEndDragging | ImageOperationPOC/ViewController/ListViewController.swift:124-129 | if the table will decelerate nothing happens; otherwise both queues are resumed and the in-flight rows are reconciled with the visible ones |
| Events.ScrollViewDidEndDecelerating | ImageOperationPOC/ViewController/ListViewController.swift:131-134 | both queues are resumed and the in-flight rows are reconciled with the visible ones |
| Events.Step | ImageOperationPOC/ViewController/ListViewController.swift:26-230 | an event keeps the number of records; only an operation's body changes a record, and only the record of the queue's running operation |
| Events.Run | ImageOperationPOC/ViewController/ListViewController.swift:26-230 | a run keeps the number of records, and a run in which no operation body executes leaves every record as it was |
| Events.StepValid | ImageOperationPOC/ViewController/ListViewController.swift:139-230 | every event keeps the invariant and moves no record backwards |
| Events.RunValid | ImageOperationPOC/ViewController/ListViewController.swift:139-230 | the same for any sequence of events |
| Events.Reachable | ImageOperationPOC/ViewController/ListViewController.swift:150-186 | after loading a manifest, any run keeps the invariant and the records' names and URLs, never has two uncancelled operations of one stage for the same row, and never has a ledger entry without an uncancelled queued operation or a pending main-queue block behind it |
| Findings.RunMainBlockAsWritten | ImageOperationPOC/ViewController/ListViewController.swift:159-162 | the block as written removes the row's entry whatever operation it names, and always reloads the row |
| Findings.AsWrittenDiffersExactlyWhenStale | ImageOperationPOC/ViewController/ListViewController.swift:159-162 | the as-written and the corrected block differ exactly when the row's entry names an operation other than the block's own |
| Findings.RaceDuplicatesDownload | ImageOperationPOC/ViewController/ListViewController.swift:150-167 | with the block as written, a concrete run ends with two uncancelled downloads for the same row, breaking the invariant |
| Findings.RaceCorrected | ImageOperationPOC/ViewController/ListViewController.swift:159-162 | the same run with the corrected block keeps a single download for the row |
| Findings.RaceRegressesState | ImageOperationPOC/Operation/ImageOperations.swift:56-73 | continuing that run, the stray download overwrites a filtered record with a downloaded one, against the lifecycle |

## Left out

- `fetchImageDetails` (ListViewController.swift:60-115) is not modelled: the HTTP request, JSON decoding and error alerts are network I/O and UI. `Scheduler.Load` starts from the decoded manifest and does not model the `reloadData` that follows.
- `Scheduler.Load` keeps each URL as a string. The crash of `URL(string:)!` on a malformed URL is not modelled.
- `Data(contentsOf:)`, `UIImage(data:)` and `UIImage(named:)` are outside code. Their results are the `FetchOutcome` parameter and two named assets.
- The Core Image work in `applySepiaFilter` (PNG encoding, `CISepiaTone` at intensity 0.8, rendering) is floating-point pixel work in a foreign library. Whether each stage succeeds and what it renders is the `SepiaPipeline` parameter.
- Threads are not modelled; each body, completion block and main-queue block is one atomic step. The body uses a single cancellation flag at all its checkpoints. A cancellation between two checkpoints acts like one at the later checkpoint, so that case is covered. A cancellation after the last checkpoint and before the write is not; see the next line.
- Scheduler.CompleteRunning: the completion block runs and the operation leaves its queue in one step, before the queue admits its next operation. In `OperationQueue`, the `completionBlock` runs once `isFinished` is set, and by then the next operation may already have started. The model does not order these two. The completion only appends to the main queue, and the next body only writes its own record, so neither step sees the other's effect.
- Events.RunValid: "no state moves backwards" and the invariant part "every live download is on a new record" rely on each body's last checkpoint and its write being one step. In the source, the download body checks cancellation at ImageOperations.swift:63 and writes at 66-67 or 71-72. In between, the main thread can cancel the row and dispatch it again while the record still reads `new`, so a second download is submitted. The identity check in `Scheduler.RunMainBlock` does not close that window. The download body also writes without the state guard the filtration body has at line 86. The model covers neither, because a body is atomic here.
- Only a cap of 1 is modelled for `OperationQueue`, which is what both queues use. The running operation is always the oldest in the queue. General caps, priorities and dependencies are not modelled.
- `Set` iteration order is unspecified. The rows to start are visited in an order supplied as the `order` parameter, which must list each of them once.
- UIKit is not modelled: cell dequeuing, labels (including "Load failed!"), the activity indicator and the row-reload animation. A reloaded row is only recorded in `reloadedRows`.
- `tableView.isDragging`, `isDecelerating` and `indexPathsForVisibleRows` are parameters of the events.
- The `print` in `startOperation` is not modelled.
- Deallocation of the controller (the `[weak self]` captures) is not modelled.
- Index paths are rows: the table has a single section.

## Findings

| source | as written | input that shows it | evidently intended | confidence | as-written member | corrected member |
|---|---|---|---|---|---|---|
| ImageOperationPOC/ViewController/ListViewController.swift:159-162 | the main-queue block of a download's completion removes `downloadsInProgress[indexPath]` whatever operation that entry now holds; the filtration block at 178-181 does the same | `Findings.RaceDuplicatesDownload`, on a one-row list: (1) the row's download finishes with a failed fetch; (2) before its block runs, the row scrolls out of view, which cancels it and drops its entry; (3) the row scrolls back, which submits a new download; (4) the stale block drops the new download's entry; (5) the next display submits a second uncancelled download for the row. `Findings.RaceRegressesState` continues the run: the row is filtered, then the stray download sets it back to downloaded | a block removes the row's entry only while the entry still names its own operation | low: the main queue must run both scroll callbacks before the block; not executed | Findings.RunMainBlockAsWritten | Scheduler.RunMainBlock |

=== FILE: events.dfy ===
/** The events the list controller reacts to, and the whole system as a
    state machine driven by them: table and scroll-view callbacks on the main
    thread, the queues admitting and finishing operations, and the main
    dispatch queue running the blocks completions leave on it. */
module Events {
  import opened Records
  import opened Operations
  import opened Scheduler
  import opened Reconciliation

  /** `tableView(_:cellForRowAt:)` for row `k`: a record that still needs work
      starts its operation, unless the table is being dragged or is
      decelerating. */
  function CellForRowAt(c: Controller, k: Key, isDragging: bool, isDecelerating: bool): (c': Controller)
    requires k < |c.images|
    ensures isDragging || isDecelerating || Terminal(c.images[k].state) ==> c' == c
    ensures !isDragging && !isDecelerating && !Terminal(c.images[k].state) ==>
              InFlight(c'.pending) == InFlight(c.pending) + {k}
    ensures c'.images == c.images && c'.mainQueue == c.mainQueue && c'.reloadedRows == c.reloadedRows
  {
    match c.images[k].state
    case Filtered => c
    case Failed => c
    case New | Downloaded =>
      if !isDragging && !isDecelerating then StartOperation(c, k) else c
  }

  /** `scrollViewWillBeginDragging`: all work is suspended, none cancelled. */
  function ScrollViewWillBeginDragging(c: Controller): (c': Controller)
    ensures forall st: Stage :: QueueOf(c'.pending, st).isSuspended
    ensures forall st: Stage :: QueueOf(c'.pending, st).tasks == QueueOf(c.pending, st).tasks
    ensures forall st: Stage :: InProgress(c'.pending, st) == InProgress(c.pending, st)
    ensures c'.images == c.images
  {
    SuspendAllOperations(c)
  }

  /** `scrollViewDidEndDragging`: when the table will not decelerate, reconcile
      with the visible rows and resume both queues; otherwise wait for the
      deceleration to end. */
  function ScrollViewDidEndDragging(c: Controller, decelerate: bool, visible: Option<set<Key>>, order: seq<Key>): (c': Controller)
    requires !decelerate && visible.Some? ==> ReconcileOrder(c, visible.value, order)
    ensures decelerate ==> c' == c
    ensures !decelerate ==> forall st: Stage :: !QueueOf(c'.pending, st).isSuspended
    ensures !decelerate && visible.Some? ==> InFlight(c'.pending) <= visible.value && Settled(c', visible.value)
    ensures c'.images == c.images
  {
    if !decelerate then ResumeAllOperations(LoadImagesForVisibleCells(c, visible, order)) else c
  }

  /** `scrollViewDidEndDecelerating`: reconcile with the visible rows, then
      resume both queues. */
  function ScrollViewDidEndDecelerating(c: Controller, visible: Option<set<Key>>, order: seq<Key>): (c': Controller)
    requires visible.Some? ==> ReconcileOrder(c, visible.value, order)
    ensures forall st: Stage :: !QueueOf(c'.pending, st).isSuspended
    ensures visible.Some? ==> InFlight(c'.pending) <= visible.value && Settled(c', visible.value)
    ensures c'.images == c.images
  {
    ResumeAllOperations(LoadImagesForVisibleCells(c, visible, order))
  }

  datatype Event =
    | DisplayCell(row: Key, isDragging: bool, isDecelerating: bool)
    | BeginDragging
    | EndDragging(decelerate: bool, visible: Option<set<Key>>, order: seq<Key>)
    | EndDecelerating(visible: Option<set<Key>>, order: seq<Key>)
      // a queue admits its next operation
    | AdmitNext(stage: Stage)
      // a queue's running operation runs its body
    | OperationBody(stage: Stage, fetch: FetchOutcome, sepia: SepiaPipeline)
      // a queue's running operation runs its completion block and leaves the queue
    | OperationCompleted(stage: Stage)
      // the main dispatch queue runs its oldest block
    | MainQueueTurn

  /** The event can happen in controller `c`. */
  predicate Enabled(c: Controller, e: Event) {
    match e
    case DisplayCell(k, _, _) => k < |c.images|
    case BeginDragging => true
    case EndDragging(decelerate, visible, order) => !decelerate && visible.Some? ==> ReconcileOrder(c, visible.value, order)
    case EndDecelerating(visible, order) => visible.Some? ==> ReconcileOrder(c, visible.value, order)
    case AdmitNext(_) => true
    case OperationBody(stage, _, _) => CanRunBody(c, stage)
    case OperationCompleted(stage) => CanComplete(c, stage)
    case MainQueueTurn => |c.mainQueue| > 0
  }

  /** One event. Only an operation's body touches the records, and then
      only the record of the queue's running operation. */
  function Step(c: Controller, e: Event): (c': Controller)
    requires Enabled(c, e)
    ensures |c'.images| == |c.images|
    ensures !e.OperationBody? ==> c'.images == c.images
    ensures e.OperationBody? ==>
              var t := QueueOf(c.pending, e.stage).tasks[0];
              forall i :: 0 <= i < |c.images| && i != t.key ==> c'.images[i] == c.images[i]
  {
    match e
    case DisplayCell(k, dragging, decelerating) => CellForRowAt(c, k, dragging, decelerating)
    case BeginDragging => ScrollViewWillBeginDragging(c)
    case EndDragging(decelerate, visible, order) => ScrollViewDidEndDragging(c, decelerate, visible, order)
    case EndDecelerating(visible, order) => ScrollViewDidEndDecelerating(c, visible, order)
    case AdmitNext(stage) => Admit(c, stage)
    case OperationBody(stage, fetch, sepia) => RunBody(c, stage, fetch, sepia)
    case OperationCompleted(stage) => CompleteRunning(c, stage)
    case MainQueueTurn => RunMainBlock(c)
  }

  lemma LoadImagesValid(c: Controller, visible: Option<set<Key>>, order: seq<Key>)
    requires Valid(c)
    requires visible.Some? ==> ReconcileOrder(c, visible.value, order)
    ensures Valid(LoadImagesForVisibleCells(c, visible, order))
  {
    if visible.Some? {
      ReconcileValid(c, visible.value, order);
    }
  }

  /** Every event keeps the invariant, and no event moves a record's state
      backwards or changes its name or URL. */
  lemma StepValid(c: Controller, e: Event)
    requires Valid(c) && Enabled(c, e)
    ensures Valid(Step(c, e))
    ensures ImagesEvolve(c.images, Step(c, e).images)
  {
    if e.OperationBody? {
      RunBodyValid(c, e.stage, e.fetch, e.sepia);
    } else {
      BookkeepingStepValid(c, e);
      assert forall i :: 0 <= i < |c.images| ==> Evolves(c.images[i], c.images[i]);
    }
  }

  /** Events other than an operation's body never touch a record. */
  lemma BookkeepingStepValid(c: Controller, e: Event)
    requires Valid(c) && Enabled(c, e) && !e.OperationBody?
    ensures Valid(Step(c, e)) && Step(c, e).images == c.images
  {
    match e {
      case DisplayCell(k, dragging, decelerating) =>
        StartOperationValid(c, k);
      case BeginDragging =>
        SuspensionValid(c);
      case EndDragging(decelerate, visible, order) =>
        if !decelerate {
          LoadImagesValid(c, visible, order);
          SuspensionValid(LoadImagesForVisibleCells(c, visible, order));
        }
      case EndDecelerating(visible, order) =>
        LoadImagesValid(c, visible, order);
        SuspensionValid(LoadImagesForVisibleCells(c, visible, order));
      case AdmitNext(stage) =>
        AdmitValid(c, stage);
      case OperationCompleted(stage) =>
        CompleteRunningValid(c, stage);
      case MainQueueTurn =>
        RunMainBlockValid(c);
    }
  }

  /** Runs the events in order; `None` if one of them cannot happen when its
      turn comes. */
  function Run(c: Controller, events: seq<Event>): (r: Option<Controller>)
    ensures r.Some? ==> |r.value.images| == |c.images|
    // a run in which no operation body executes leaves every record as it was
    ensures r.Some? && (forall i :: 0 <= i < |events| ==> !events[i].OperationBody?) ==> r.value.images == c.images
    decreases |events|
  {
    if events == [] then Some(c)
    else if !Enabled(c, events[0]) then None
    else Run(Step(c, events[0]), events[1..])
  }

  lemma {:induction false} RunValid(c: Controller, events: seq<Event>)
    requires Valid(c) && Run(c, events).Some?
    ensures Valid(Run(c, events).value)
    ensures ImagesEvolve(c.images, Run(c, events).value.images)
    decreases |events|
  {
    if events != [] {
      StepValid(c, events[0]);
      var c1 := Step(c, events[0]);
      RunValid(c1, events[1..]);
      ImagesEvolveTransitive(c.images, c1.images, Run(c1, events[1..]).value.images);
    }
  }

  /** Whatever happens after the manifest is loaded: no row ever has two
      uncancelled operations in the same stage, every ledger entry names an
      uncancelled queued operation of its row or one whose main-queue block is
      still pending, and every record is a later version of the new record its
      manifest entry produced. */
  lemma Reachable(manifest: seq<(string, string)>, events: seq<Event>, stage: Stage, i: nat, j: nat)
    requires Run(Load(manifest), events).Some?
    ensures var c := Run(Load(manifest), events).value;
            && Valid(c)
            && Accounted(c, stage)
            && |c.images| == |manifest|
            && (forall k :: 0 <= k < |manifest| ==>
                  c.images[k].name == manifest[k].0 && c.images[k].url == manifest[k].1)
            && (i < j < |QueueOf(c.pending, stage).tasks| &&
                !QueueOf(c.pending, stage).tasks[i].cancelled && !QueueOf(c.pending, stage).tasks[j].cancelled ==>
                  QueueOf(c.pending, stage).tasks[i].key != QueueOf(c.pending, stage).tasks[j].key)
  {
    var c0 := Load(manifest);
    RunValid(c0, events);
    var c := Run(c0, events).value;
    assert forall k :: 0 <= k < |manifest| ==> Evolves(c0.images[k], c.images[k]);
    if i < j < |QueueOf(c.pending, stage).tasks| &&
       !QueueOf(c.pending, stage).tasks[i].cancelled && !QueueOf(c.pending, stage).tasks[j].cancelled {
      NoDuplicateLiveOperation(c, stage, i, j);
    }
  }
}

=== FILE: findings.dfy ===
/** The completion blocks of `startDownload` and `startFiltration` check
    `isCancelled` on the operation's own thread and then, on the main queue,
    remove the row's ledger entry unconditionally. Between the check and the
    main-queue block, a reconciliation may cancel the row (dropping the entry)
    and a later one may start a fresh operation for it; the stale block then
    removes the fresh operation's entry. The row looks idle although its
    operation is still queued, so it can be started a second time; the two
    downloads both write the record, and the second can move a filtered
    record back to downloaded.

    `Scheduler.RunMainBlock` is the corrected block, which only removes an
    entry that still names its own operation; this module states the block
    as written and exhibits the run above. */
module Findings {
  import opened Records
  import opened Operations
  import opened Scheduler
  import opened Reconciliation
  import opened Events

  /** The main-queue block as the completion blocks write it: it removes the
      row's entry from the stage's ledger, whichever operation it names, and
      reloads the row. */
  function RunMainBlockAsWritten(c: Controller): (c': Controller)
    requires |c.mainQueue| > 0
    ensures var b := c.mainQueue[0];
            && c'.mainQueue == c.mainQueue[1..]
            && InProgress(c'.pending, b.stage) == InProgress(c.pending, b.stage) - {b.key}
            && InProgress(c'.pending, Other(b.stage)) == InProgress(c.pending, Other(b.stage))
            && c'.reloadedRows == c.reloadedRows + [b.key]
    ensures forall st: Stage :: QueueOf(c'.pending, st) == QueueOf(c.pending, st)
    ensures c'.images == c.images && c'.nextId == c.nextId
  {
    var b := c.mainQueue[0];
    c.(mainQueue := c.mainQueue[1..],
       pending := UpdateStage(c.pending, b.stage, InProgress(c.pending, b.stage) - {b.key}, QueueOf(c.pending, b.stage)),
       reloadedRows := c.reloadedRows + [b.key])
  }

  /** The as-written and the corrected block differ exactly when the row's
      entry names an operation other than the block's own: the as-written
      block then drops that other operation's entry, the corrected one keeps
      it. */
  lemma AsWrittenDiffersExactlyWhenStale(c: Controller)
    requires |c.mainQueue| > 0
    ensures var b := c.mainQueue[0];
            var m := InProgress(c.pending, b.stage);
            (b.key in m && m[b.key] != b.id) <==> RunMainBlockAsWritten(c) != RunMainBlock(c)
  {
    var b := c.mainQueue[0];
    var m := InProgress(c.pending, b.stage);
    if b.key in m && m[b.key] != b.id {
      assert b.key !in InProgress(RunMainBlockAsWritten(c).pending, b.stage);
      assert b.key in InProgress(RunMainBlock(c).pending, b.stage);
    } else {
      assert m - {b.key} == m || Owns(m, Task(b.id, b.key, false));
      assert InProgress(RunMainBlockAsWritten(c).pending, b.stage) == InProgress(RunMainBlock(c).pending, b.stage);
      assert RunMainBlockAsWritten(c).pending == RunMainBlock(c).pending by {
        match b.stage { case Download => case Filtration => }
      }
    }
  }

  /** An operation runs its body and, with nothing in between, its completion block. */
  function Operate(c: Controller, stage: Stage, fetch: FetchOutcome, sepia: SepiaPipeline): (c': Controller)
    requires CanRunBody(c, stage)
  {
    CompleteRunning(RunBody(c, stage, fetch, sepia), stage)
  }

  const Manifest: seq<(string, string)> := [("photo", "https://example.org/photo.png")]
  const Bytes: FetchOutcome := Fetched([1], Some(Bitmap([1])))
  const Sepia: SepiaPipeline := SepiaPipeline(true, true, Some(Bitmap([2])))
  const NoSepia: SepiaPipeline := SepiaPipeline(false, false, None)

  /** The race, step by step, on a one-row list: the row's first download
      fails transiently; before its main-queue block runs, the row scrolls
      away and back, which cancels the finished download and submits a new
      one; the stale block then drops the new download's entry, and the next
      display of the row submits a third. */
  function RaceAsWritten(): (c: Controller)
  {
    var c0 := Load(Manifest);
    var c1 := CellForRowAt(c0, 0, false, false);          // download 0 submitted
    var c2 := Admit(c1, Download);
    var c3 := Operate(c2, Download, FetchError, NoSepia);  // its block is queued
    var c4 := ScrollViewDidEndDecelerating(c3, Some({}), []);    // row gone: entry dropped
    var c5 := ScrollViewDidEndDecelerating(c4, Some({0}), [0]);  // row back: download 1 submitted
    var c6 := RunMainBlockAsWritten(c5);                  // stale block drops download 1's entry
    CellForRowAt(c6, 0, false, false)                     // download 2 submitted
  }

  /** The run ends with two uncancelled downloads for the same row, which the
      invariant of the corrected controller rules out. */
  lemma RaceDuplicatesDownload()
    ensures var c := RaceAsWritten();
            && c.pending.downloadQueue == OperationQueue([Task(1, 0, false), Task(2, 0, false)], 0, false, false)
            && !Valid(c)
    ensures var c := RaceAsWritten();
            && |c.images| == 1 && c.images[0].state == New
            && c.pending.filtrationQueue == EmptyQueue && c.pending.filtrationsInProgress == map[]
            && c.nextId == 3
  {
    var c := RaceAsWritten();
    assert c.pending.downloadQueue.tasks == [Task(1, 0, false), Task(2, 0, false)];
    if Valid(c) {
      NoDuplicateLiveOperation(c, Download, 0, 1);
    }
  }

  /** The same run with the corrected block: the stale block leaves download
      1's entry alone and the second display submits nothing. */
  lemma RaceCorrected()
    ensures var c0 := Load(Manifest);
            var c1 := CellForRowAt(c0, 0, false, false);
            var c2 := Admit(c1, Download);
            var c3 := Operate(c2, Download, FetchError, NoSepia);
            var c4 := ScrollViewDidEndDecelerating(c3, Some({}), []);
            var c5 := ScrollViewDidEndDecelerating(c4, Some({0}), [0]);
            var c6 := RunMainBlock(c5);
            var c := CellForRowAt(c6, 0, false, false);
            c.pending.downloadQueue.tasks == [Task(1, 0, false)] && c.pending.downloadsInProgress == map[0 := 1]
  {
  }

  /** A queue whose only waiting operation `t` is uncancelled and for row 0. */
  predicate WaitingFirst(q: OperationQueue, t: Task) {
    |q.tasks| > 0 && q.tasks[0] == t && q.running == 0 && !q.isSuspended && !q.bodyDone
  }

  /** An uncancelled operation at the head of an unsuspended idle queue runs
      to completion; its body sees no cancellation. */
  lemma OperateHead(c: Controller, stage: Stage, fetch: FetchOutcome, sepia: SepiaPipeline, t: Task)
    requires WaitingFirst(QueueOf(c.pending, stage), t) && !t.cancelled && t.key < |c.images|
    ensures CanRunBody(Admit(c, stage), stage)
    ensures var c' := Operate(Admit(c, stage), stage, fetch, sepia);
            && QueueOf(c'.pending, stage) == QueueOf(c.pending, stage).(tasks := QueueOf(c.pending, stage).tasks[1..])
            && QueueOf(c'.pending, Other(stage)) == QueueOf(c.pending, Other(stage))
            && (forall st: Stage :: InProgress(c'.pending, st) == InProgress(c.pending, st))
            && c'.nextId == c.nextId && |c'.images| == |c.images|
            && c'.images[t.key] == (match stage
                 case Download => DownloadMain(c.images[t.key], false, fetch, false)
                 case Filtration => FilterMain(c.images[t.key], false, sepia, false, false))
  {
  }

  /** Continuing the as-written run: download 1 succeeds and the filtration
      it triggers is submitted, while download 2 still waits. */
  function RaceFiltering(): (c: Controller)
    requires CanRunBody(Admit(RaceAsWritten(), Download), Download)
  {
    var d0 := RaceAsWritten();
    var d1 := Admit(d0, Download);
    var d2 := Operate(d1, Download, Bytes, NoSepia);     // row downloaded
    CellForRowAt(d2, 0, false, false)                    // filtration submitted
  }

  lemma RaceFilteringState()
    ensures CanRunBody(Admit(RaceAsWritten(), Download), Download)
    ensures var c := RaceFiltering();
            && |c.images| == 1 && c.images[0].state == Downloaded && c.images[0].image == Some(Bitmap([1]))
            && WaitingFirst(c.pending.downloadQueue, Task(2, 0, false))
            && WaitingFirst(c.pending.filtrationQueue, Task(3, 0, false))
  {
    RaceDuplicatesDownload();
    var d0 := RaceAsWritten();
    OperateHead(d0, Download, Bytes, NoSepia, Task(1, 0, false));
    var d2 := Operate(Admit(d0, Download), Download, Bytes, NoSepia);
    assert d2.images[0].state == Downloaded;
    assert d2.pending.downloadQueue.tasks == [Task(2, 0, false)];
  }

  /** From a downloaded row with a filtration and a stray live download
      waiting: the filtration runs, and then the download overwrites the
      filtered record with a downloaded one. */
  lemma FilteredThenRedownloaded(d3: Controller, stray: Task, filtration: Task)
    requires |d3.images| == 1 && d3.images[0].state == Downloaded && d3.images[0].image.Some?
    requires stray.key == 0 && !stray.cancelled && filtration.key == 0 && !filtration.cancelled
    requires WaitingFirst(d3.pending.downloadQueue, stray) && WaitingFirst(d3.pending.filtrationQueue, filtration)
    ensures CanRunBody(Admit(d3, Filtration), Filtration)
    ensures var d5 := Operate(Admit(d3, Filtration), Filtration, FetchError, Sepia);
            CanRunBody(Admit(d5, Download), Download) &&
            var d7 := Operate(Admit(d5, Download), Download, Bytes, NoSepia);
            && d5.images[0].state == Filtered
            && d7.images[0].state == Downloaded
            && !Advances(d5.images[0].state, d7.images[0].state)
  {
    OperateHead(d3, Filtration, FetchError, Sepia, filtration);
    var d5 := Operate(Admit(d3, Filtration), Filtration, FetchError, Sepia);
    assert d5.images[0].state == Filtered;
    OperateHead(d5, Download, Bytes, NoSepia, stray);
  }

  /** In the as-written run, the row is filtered and then regresses to
      downloaded, a move the record lifecycle does not allow. */
  lemma RaceRegressesState()
    ensures CanRunBody(Admit(RaceAsWritten(), Download), Download)
    ensures var d3 := RaceFiltering();
            CanRunBody(Admit(d3, Filtration), Filtration) &&
            var d5 := Operate(Admit(d3, Filtration), Filtration, FetchError, Sepia);   // row filtered
            CanRunBody(Admit(d5, Download), Download) &&
            var d7 := Operate(Admit(d5, Download), Download, Bytes, NoSepia);          // download 2 runs
            && d5.images[0].state == Filtered
            && d7.images[0].state == Downloaded
            && !Advances(d5.images[0].state, d7.images[0].state)
  {
    RaceFilteringState();
    FilteredThenRedownloaded(RaceFiltering(), Task(2, 0, false), Task(3, 0, false));
  }
}

=== FILE: operations.dfy ===
/** The bookkeeping of in-flight work: one operation queue per stage and, per
    stage, the ledger from row to the operation submitted for it. */
module Operations {
  import opened Records

  /** Identity of a submitted operation; identities are handed out in
      increasing order, so they also record submission order. */
  type TaskId = nat

  datatype Stage = Download | Filtration

  function Other(stage: Stage): Stage {
    match stage
    case Download => Filtration
    case Filtration => Download
  }

  /** A submitted operation for the record at row `key`. `cancelled` is the
      operation's cooperative cancellation flag. */
  datatype Task = Task(id: TaskId, key: Key, cancelled: bool)

  /** Both queues run at most one operation at a time. */
  const MaxConcurrentOperationCount: nat := 1

  /** An operation queue: the operations not yet finished, in submission
      order; the first `running` of them have been started. `bodyDone` says
      that the running operation has returned from `main` and its completion
      block is still to run. */
  datatype OperationQueue = OperationQueue(tasks: seq<Task>, running: nat, isSuspended: bool, bodyDone: bool)

  datatype PendingOperations = PendingOperations(
    downloadsInProgress: map<Key, TaskId>,
    downloadQueue: OperationQueue,
    filtrationsInProgress: map<Key, TaskId>,
    filtrationQueue: OperationQueue)

  const EmptyQueue: OperationQueue := OperationQueue([], 0, false, false)

  /** The bookkeeping of a freshly loaded list: nothing in flight, nothing
      queued, neither queue suspended. */
  function NewPendingOperations(): (p: PendingOperations)
    ensures forall stage: Stage :: InProgress(p, stage) == map[]
    ensures forall stage: Stage :: QueueOf(p, stage).tasks == [] && QueueOf(p, stage).running == 0
    ensures forall stage: Stage :: !QueueOf(p, stage).isSuspended && !QueueOf(p, stage).bodyDone
  {
    PendingOperations(map[], EmptyQueue, map[], EmptyQueue)
  }

  /** The ledger of `stage`: which rows have an operation in that stage. */
  function InProgress(p: PendingOperations, stage: Stage): map<Key, TaskId> {
    match stage
    case Download => p.downloadsInProgress
    case Filtration => p.filtrationsInProgress
  }

  function QueueOf(p: PendingOperations, stage: Stage): OperationQueue {
    match stage
    case Download => p.downloadQueue
    case Filtration => p.filtrationQueue
  }

  /** Rows with an operation in either stage. */
  function InFlight(p: PendingOperations): set<Key> {
    p.downloadsInProgress.Keys + p.filtrationsInProgress.Keys
  }

  /** Replaces the ledger and queue of one stage, leaving the other stage alone. */
  function UpdateStage(p: PendingOperations, stage: Stage, m: map<Key, TaskId>, q: OperationQueue): (p': PendingOperations)
    ensures InProgress(p', stage) == m && QueueOf(p', stage) == q
    ensures InProgress(p', Other(stage)) == InProgress(p, Other(stage))
    ensures QueueOf(p', Other(stage)) == QueueOf(p, Other(stage))
  {
    match stage
    case Download => p.(downloadsInProgress := m, downloadQueue := q)
    case Filtration => p.(filtrationsInProgress := m, filtrationQueue := q)
  }

  /** `addOperation`: the operation joins the end of the queue. */
  function AddOperation(q: OperationQueue, t: Task): (q': OperationQueue)
    ensures q'.tasks == q.tasks + [t]
    ensures q'.running == q.running && q'.isSuspended == q.isSuspended && q'.bodyDone == q.bodyDone
  {
    q.(tasks := q.tasks + [t])
  }

  /** Calls `cancel()` on every operation of the queue whose identity is in
      `ids`. Cancellation is cooperative: operations stay in the queue, in
      the same order, and only their flag changes. */
  function CancelOperations(q: OperationQueue, ids: set<TaskId>): (q': OperationQueue)
    ensures |q'.tasks| == |q.tasks| && q'.running == q.running && q'.isSuspended == q.isSuspended
    ensures q'.bodyDone == q.bodyDone
    ensures forall i :: 0 <= i < |q.tasks| ==>
              q'.tasks[i].id == q.tasks[i].id && q'.tasks[i].key == q.tasks[i].key &&
              (q'.tasks[i].cancelled <==> q.tasks[i].cancelled || q.tasks[i].id in ids)
    ensures ids == {} ==> q' == q
  {
    var q' := q.(tasks := seq(|q.tasks|, i requires 0 <= i < |q.tasks| =>
                               q.tasks[i].(cancelled := q.tasks[i].cancelled || q.tasks[i].id in ids)));
    assert ids == {} ==> q'.tasks == q.tasks;
    q'
  }

  /** The queue admits its oldest waiting operation, unless it is suspended
      or already runs as many operations as it may. */
  function StartNext(q: OperationQueue): (q': OperationQueue)
    ensures q'.tasks == q.tasks && q'.isSuspended == q.isSuspended && q'.bodyDone == q.bodyDone
    ensures q.isSuspended ==> q' == q
    ensures q'.running <= MaxConcurrentOperationCount || q'.running == q.running
    ensures q'.running <= |q'.tasks| || q'.running == q.running
    ensures q'.running == q.running + 1 <==>
              !q.isSuspended && q.running < MaxConcurrentOperationCount && q.running < |q.tasks|
  {
    if !q.isSuspended && q.running < MaxConcurrentOperationCount && q.running < |q.tasks|
    then q.(running := q.running + 1)
    else q
  }

  /** The running operation (with one slot, the oldest) leaves the queue. */
  function FinishHead(q: OperationQueue): (q': OperationQueue)
    requires 0 < q.running <= |q.tasks|
    ensures q.tasks == [q.tasks[0]] + q'.tasks
    ensures q'.running == q.running - 1 && q'.isSuspended == q.isSuspended && !q'.bodyDone
  {
    q.(tasks := q.tasks[1..], running := q.running - 1, bodyDone := false)
  }

  /** Sets `isSuspended` on both queues. Neither the ledgers nor any queued
      or running operation is affected: suspension only stops admission. */
  function SetSuspended(p: PendingOperations, suspended: bool): (p': PendingOperations)
    ensures forall stage: Stage :: QueueOf(p', stage).isSuspended == suspended
    ensures forall stage: Stage :: InProgress(p', stage) == InProgress(p, stage)
    ensures forall stage: Stage :: QueueOf(p', stage).tasks == QueueOf(p, stage).tasks
    ensures forall stage: Stage :: QueueOf(p', stage).running == QueueOf(p, stage).running
  {
    p.(downloadQueue := p.downloadQueue.(isSuspended := suspended),
       filtrationQueue := p.filtrationQueue.(isSuspended := suspended))
  }
}

=== FILE: reconciliation.dfy ===
/** `loadImagesForVisibleCells`: the diff between the rows that are visible
    and the rows that have work in flight. Rows in flight that are no longer
    visible lose their ledger entries and have their operations cancelled;
    visible rows with nothing in flight get the operation their record's
    state calls for. */
module Reconciliation {
  import opened Records
  import opened Operations
  import opened Scheduler

  /** `order` lists every key of `keys` exactly once: the order in which a
      loop over a `Set` happens to visit it. */
  predicate Enumerates(order: seq<Key>, keys: set<Key>) {
    && (forall i, j :: 0 <= i < j < |order| ==> order[i] != order[j])
    && (forall i :: 0 <= i < |order| ==> order[i] in keys)
    && (forall k :: k in keys ==> k in order)
  }

  /** The operations the ledger `m` records for the rows in `rows`. */
  function EntriesOf(m: map<Key, TaskId>, rows: set<Key>): (ids: set<TaskId>)
    ensures forall k :: k in rows && k in m ==> m[k] in ids
    ensures forall id :: id in ids ==> exists k :: k in rows && k in m && m[k] == id
    ensures rows == {} ==> ids == {}
  {
    set k | k in rows && k in m :: m[k]
  }

  /** The first loop of the reconciliation: for every row in `rows`, cancel
      its download and its filtration, if any, and drop both ledger entries. */
  function CancelRows(c: Controller, rows: set<Key>): (c': Controller)
    ensures forall st: Stage :: InProgress(c'.pending, st) == InProgress(c.pending, st) - rows
    ensures forall st: Stage :: QueueOf(c'.pending, st) ==
              CancelOperations(QueueOf(c.pending, st), EntriesOf(InProgress(c.pending, st), rows))
    ensures c'.images == c.images && c'.mainQueue == c.mainQueue && c'.reloadedRows == c.reloadedRows
    ensures c'.nextId == c.nextId
    ensures rows == {} ==> c' == c
  {
    var d := c.pending.downloadsInProgress;
    var f := c.pending.filtrationsInProgress;
    var c' := c.(pending := PendingOperations(
      d - rows, CancelOperations(c.pending.downloadQueue, EntriesOf(d, rows)),
      f - rows, CancelOperations(c.pending.filtrationQueue, EntriesOf(f, rows))));
    assert rows == {} ==> d - rows == d && f - rows == f;
    c'
  }

  /** The record state each stage starts from. */
  function Needs(stage: Stage): RecordState {
    match stage
    case Download => New
    case Filtration => Downloaded
  }

  /** The ledger and queue of `stage` in `c'` extend those of `c` by entries
      for exactly the rows of `order` whose record is in the state the stage
      needs: no entry is replaced or dropped, no queued operation moves. */
  ghost predicate Extends(c: Controller, c': Controller, stage: Stage, order: seq<Key>) {
    var m := InProgress(c.pending, stage);
    var m' := InProgress(c'.pending, stage);
    var q := QueueOf(c.pending, stage);
    var q' := QueueOf(c'.pending, stage);
    && (forall k :: k in m ==> k in m' && m'[k] == m[k])
    && (forall k :: k in m' && k !in m ==> k in order && k < |c.images| && c.images[k].state == Needs(stage))
    && (forall k :: k in order && k < |c.images| && c.images[k].state == Needs(stage) ==> k in m')
    && |q.tasks| <= |q'.tasks|
    && (forall i :: 0 <= i < |q.tasks| ==> q'.tasks[i] == q.tasks[i])
    && q'.running == q.running && q'.isSuspended == q.isSuspended && q'.bodyDone == q.bodyDone
  }

  /** The second loop of the reconciliation: `startOperation` for each row of
      `order`, in that order. */
  function StartAll(c: Controller, order: seq<Key>): (c': Controller)
    requires forall i :: 0 <= i < |order| ==> order[i] < |c.images|
    ensures c'.images == c.images && c'.mainQueue == c.mainQueue && c'.reloadedRows == c.reloadedRows
    ensures c'.nextId >= c.nextId
    // rows whose records are finished need nothing
    ensures (forall i :: 0 <= i < |order| ==> Terminal(c.images[order[i]].state)) ==> c' == c
    decreases |order|
  {
    if order == [] then c
    else StartAll(StartOperation(c, order[0]), order[1..])
  }

  lemma StartOperationExtends(c: Controller, k: Key, stage: Stage)
    requires k < |c.images|
    ensures Extends(c, StartOperation(c, k), stage, [k])
  {
    var c' := StartOperation(c, k);
    var st := c.images[k].state;
    if st == Needs(stage) {
      assert AddsOperation(c, c', stage, k);
    } else if st == Needs(Other(stage)) {
      assert AddsOperation(c, c', Other(stage), k);
      assert Other(Other(stage)) == stage;
    } else {
      assert Terminal(st) by { match stage { case Download => case Filtration => } }
    }
  }

  lemma ExtendsCompose(c: Controller, c1: Controller, c2: Controller, stage: Stage, k: Key, rest: seq<Key>)
    requires c1.images == c.images
    requires Extends(c, c1, stage, [k]) && Extends(c1, c2, stage, rest)
    ensures Extends(c, c2, stage, [k] + rest)
  {
  }

  lemma {:induction false} StartAllExtends(c: Controller, order: seq<Key>, stage: Stage)
    requires forall i :: 0 <= i < |order| ==> order[i] < |c.images|
    ensures Extends(c, StartAll(c, order), stage, order)
    decreases |order|
  {
    if order != [] {
      var c1 := StartOperation(c, order[0]);
      StartOperationExtends(c, order[0], stage);
      StartAllExtends(c1, order[1..], stage);
      ExtendsCompose(c, c1, StartAll(c1, order[1..]), stage, order[0], order[1..]);
      assert [order[0]] + order[1..] == order;
    }
  }

  lemma {:induction false} StartAllValid(c: Controller, order: seq<Key>)
    requires Valid(c)
    requires forall i :: 0 <= i < |order| ==> order[i] < |c.images|
    ensures Valid(StartAll(c, order))
    decreases |order|
  {
    if order != [] {
      StartOperationValid(c, order[0]);
      StartAllValid(StartOperation(c, order[0]), order[1..]);
    }
  }

  /** Cancelling the operations of some rows and dropping their entries keeps
      a stage coherent: an uncancelled operation names its row's entry, so if
      that row is dropped the operation is among the cancelled ones. */
  lemma CoherentCancel(q: OperationQueue, m: map<Key, TaskId>, rows: nat, nextId: TaskId, done: set<TaskId>, keys: set<Key>)
    requires Coherent(q, m, rows, nextId, done)
    ensures Coherent(CancelOperations(q, EntriesOf(m, keys)), m - keys, rows, nextId, done)
  {
    var q' := CancelOperations(q, EntriesOf(m, keys));
    forall i | 0 <= i < |q'.tasks| && !q'.tasks[i].cancelled
      ensures Owns(m - keys, q'.tasks[i])
    {
      assert Owns(m, q.tasks[i]);
    }
  }

  lemma CancelRowsValid(c: Controller, rows: set<Key>)
    requires Valid(c)
    ensures Valid(CancelRows(c, rows))
  {
    var c' := CancelRows(c, rows);
    CoherentCancel(c.pending.downloadQueue, c.pending.downloadsInProgress, |c.images|, c.nextId,
                   BlockIds(c.mainQueue, Download), rows);
    CoherentCancel(c.pending.filtrationQueue, c.pending.filtrationsInProgress, |c.images|, c.nextId,
                   BlockIds(c.mainQueue, Filtration), rows);
    assert StageValid(c', Download) && StageValid(c', Filtration);
    assert DownloadsOnNew(c');
  }

  /** The rows `startOperation` would be called for, and the order it is
      called in: every visible row is a real row, and `order` enumerates the
      visible rows with nothing in flight. */
  predicate ReconcileOrder(c: Controller, visible: set<Key>, order: seq<Key>) {
    && (forall k :: k in visible ==> k < |c.images|)
    && Enumerates(order, visible - InFlight(c.pending))
  }

  /** Nothing is in flight outside `visible`, and every visible row with
      nothing in flight has a finished record. */
  ghost predicate Settled(c: Controller, visible: set<Key>) {
    && InFlight(c.pending) <= visible
    && forall k :: k in visible && k !in InFlight(c.pending) && k < |c.images| ==> Terminal(c.images[k].state)
  }

  lemma CancelRowsInFlight(c: Controller, rows: set<Key>)
    ensures InFlight(CancelRows(c, rows).pending) == InFlight(c.pending) - rows
  {
    var c' := CancelRows(c, rows);
    assert c'.pending.downloadsInProgress == c.pending.downloadsInProgress - rows;
    assert c'.pending.filtrationsInProgress == c.pending.filtrationsInProgress - rows;
  }

  /** The reconciliation once the table has reported the visible rows `visible`;
      `order` is the order in which the loop visits the rows to start. */
  function Reconcile(c: Controller, visible: set<Key>, order: seq<Key>): (c': Controller)
    requires ReconcileOrder(c, visible, order)
    // no row outside the visible ones is left in flight
    ensures InFlight(c'.pending) <= visible
    // afterwards the rows are settled, and a settled controller is left as it is
    ensures Settled(c', visible)
    ensures Settled(c, visible) ==> c' == c
    ensures c'.images == c.images && c'.mainQueue == c.mainQueue && c'.reloadedRows == c.reloadedRows
  {
    ReconcileSettles(c, visible, order);
    StartAll(CancelRows(c, InFlight(c.pending) - visible), order)
  }

  lemma ReconcileSettles(c: Controller, visible: set<Key>, order: seq<Key>)
    requires ReconcileOrder(c, visible, order)
    ensures var c' := StartAll(CancelRows(c, InFlight(c.pending) - visible), order);
            && InFlight(c'.pending) <= visible
            && Settled(c', visible)
            && (Settled(c, visible) ==> c' == c)
  {
    var toCancel := InFlight(c.pending) - visible;
    var c1 := CancelRows(c, toCancel);
    var c' := StartAll(c1, order);
    CancelRowsInFlight(c, toCancel);
    StartAllExtends(c1, order, Download);
    StartAllExtends(c1, order, Filtration);
    forall k | k in InFlight(c'.pending)
      ensures k in visible
    {
      if k !in InFlight(c1.pending) {
        assert k in order;
      }
    }
    forall k | k in visible && k !in InFlight(c'.pending) && k < |c'.images|
      ensures Terminal(c'.images[k].state)
    {
      assert k in order;
      assert Needs(Download) == New && Needs(Filtration) == Downloaded;
    }
    if Settled(c, visible) {
      assert toCancel == {};
      assert c1 == c;
      forall i | 0 <= i < |order| ensures Terminal(c.images[order[i]].state) {
        assert order[i] in visible - InFlight(c.pending);
      }
    }
  }

  /** What the reconciliation does to each visible row's ledger entry in
      `stage`: a row already in flight keeps exactly the entry it had, and a
      row with nothing in flight gets an entry exactly when its record is in
      the state the stage starts from. */
  lemma ReconcileLedger(c: Controller, visible: set<Key>, order: seq<Key>, stage: Stage)
    requires ReconcileOrder(c, visible, order)
    ensures var m := InProgress(c.pending, stage);
            var m' := InProgress(Reconcile(c, visible, order).pending, stage);
            && (forall k :: k in visible && k in InFlight(c.pending) ==>
                  (k in m' <==> k in m) && (k in m ==> m'[k] == m[k]))
            && (forall k :: k in visible && k !in InFlight(c.pending) ==>
                  (k in m' <==> c.images[k].state == Needs(stage)))
  {
    var toCancel := InFlight(c.pending) - visible;
    var c1 := CancelRows(c, toCancel);
    StartAllExtends(c1, order, stage);
    assert InProgress(c1.pending, stage) == InProgress(c.pending, stage) - toCancel;
    assert forall k :: k in InProgress(c.pending, stage) ==> k in InFlight(c.pending) by {
      match stage { case Download => case Filtration => }
    }
  }

  /** `loadImagesForVisibleCells`: when the table reports no visible rows,
      nothing happens. */
  function LoadImagesForVisibleCells(c: Controller, visible: Option<set<Key>>, order: seq<Key>): (c': Controller)
    requires visible.Some? ==> ReconcileOrder(c, visible.value, order)
    ensures visible.None? ==> c' == c
    ensures visible.Some? ==> InFlight(c'.pending) <= visible.value && Settled(c', visible.value)
    ensures visible.Some? && Settled(c, visible.value) ==> c' == c
    ensures c'.images == c.images && c'.mainQueue == c.mainQueue && c'.reloadedRows == c.reloadedRows
  {
    match visible
    case None => c
    case Some(v) => Reconcile(c, v, order)
  }

  /** Reconciling twice with the same visible rows, with nothing happening in
      between, leaves the second call without effect. */
  lemma ReconcileIdempotent(c: Controller, visible: set<Key>, order1: seq<Key>)
    requires ReconcileOrder(c, visible, order1)
    ensures var c1 := Reconcile(c, visible, order1);
            forall order2 :: ReconcileOrder(c1, visible, order2) ==> Reconcile(c1, visible, order2) == c1
  {
  }

  lemma ReconcileValid(c: Controller, visible: set<Key>, order: seq<Key>)
    requires Valid(c) && ReconcileOrder(c, visible, order)
    ensures Valid(Reconcile(c, visible, order))
  {
    var c1 := CancelRows(c, InFlight(c.pending) - visible);
    CancelRowsValid(c, InFlight(c.pending) - visible);
    StartAllValid(c1, order);
  }

  /** Operations of rows in `rows` are cancelled and no other operation is. */
  lemma CancelRowsCancels(c: Controller, rows: set<Key>, stage: Stage, i: nat)
    requires Valid(c)
    requires i < |QueueOf(c.pending, stage).tasks|
    ensures var t := QueueOf(c.pending, stage).tasks[i];
            var t' := QueueOf(CancelRows(c, rows).pending, stage).tasks[i];
            t'.id == t.id && t'.key == t.key &&
            (t'.cancelled <==> t.cancelled || t.key in rows)
  {
    var q := QueueOf(c.pending, stage);
    var m := InProgress(c.pending, stage);
    var t := q.tasks[i];
    ValidStages(c, stage);
    if !t.cancelled {
      assert Owns(m, t);
      if t.key in rows {
        assert t.id in EntriesOf(m, rows);
      }
    }
  }

  /** On a reachable controller the reconciliation cancels exactly the
      uncancelled operations of rows that are no longer visible: operations of
      visible rows keep running, and every operation left uncancelled is for a
      visible row. */
  lemma ReconcileCancelsExactlyInvisible(c: Controller, visible: set<Key>, order: seq<Key>, stage: Stage)
    requires Valid(c) && ReconcileOrder(c, visible, order)
    ensures var q := QueueOf(c.pending, stage);
            var q' := QueueOf(Reconcile(c, visible, order).pending, stage);
            && |q.tasks| <= |q'.tasks|
            && (forall i :: 0 <= i < |q.tasks| ==>
                  q'.tasks[i].id == q.tasks[i].id && q'.tasks[i].key == q.tasks[i].key &&
                  (q'.tasks[i].cancelled <==> q.tasks[i].cancelled || q.tasks[i].key !in visible))
            && (forall i :: 0 <= i < |q'.tasks| && !q'.tasks[i].cancelled ==> q'.tasks[i].key in visible)
  {
    var toCancel := InFlight(c.pending) - visible;
    var c1 := CancelRows(c, toCancel);
    var c' := Reconcile(c, visible, order);
    var q := QueueOf(c.pending, stage);
    var q' := QueueOf(c'.pending, stage);
    StartAllExtends(c1, order, stage);
    forall i | 0 <= i < |q.tasks|
      ensures q'.tasks[i].id == q.tasks[i].id && q'.tasks[i].key == q.tasks[i].key &&
              (q'.tasks[i].cancelled <==> q.tasks[i].cancelled || q.tasks[i].key !in visible)
    {
      CancelRowsCancels(c, toCancel, stage, i);
      if !q.tasks[i].cancelled {
        ValidStages(c, stage);
        assert Owns(InProgress(c.pending, stage), q.tasks[i]);
        assert q.tasks[i].key in InFlight(c.pending) by { match stage { case Download => case Filtration => } }
      }
    }
    ReconcileValid(c, visible, order);
    forall i | 0 <= i < |q'.tasks| && !q'.tasks[i].cancelled
      ensures q'.tasks[i].key in visible
    {
      ValidStages(c', stage);
      assert Owns(InProgress(c'.pending, stage), q'.tasks[i]);
      assert q'.tasks[i].key in InFlight(c'.pending) by { match stage { case Download => case Filtration => } }
    }
  }
}

=== FILE: records.dfy ===
/** Image records, their lifecycle, and the bodies of the two kinds of
    operation (download and sepia filtration) that advance it.

    Every input a body cannot compute itself is a parameter: the cancellation
    flag the operation observes at each of its checkpoints, the outcome of
    fetching the URL, and the outcome of the Core Image pipeline. */
module Records {

  datatype Option<+T> = None | Some(value: T)

  /** The row of the list an image occupies. The list has a single section,
      so the row number identifies the index path used as a key everywhere. */
  type Key = nat

  /** Lifecycle of one image record. */
  datatype RecordState = New | Downloaded | Filtered | Failed

  /** An image handle. `Asset` is a bundled image looked up by name; `Bitmap`
      stands for decoded or rendered pixel data, whose contents are opaque. */
  datatype Image = Asset(name: string) | Bitmap(pixels: seq<bv8>)

  const PlaceholderImage: Image := Asset("Placeholder")
  const FailedImage: Image := Asset("Failed")

  /** `image` is optional because loading an asset or decoding bytes may
      produce no image at all. */
  datatype ImageRecord = ImageRecord(name: string, url: string, state: RecordState, image: Option<Image>)

  /** A record as created from one manifest entry. */
  function NewRecord(name: string, url: string): (r: ImageRecord)
    ensures r.name == name && r.url == url
    ensures r.state == New && r.image == Some(PlaceholderImage)
    ensures forall st: RecordState :: Advances(r.state, st)
  {
    ImageRecord(name, url, New, Some(PlaceholderImage))
  }

  /** One edge of the lifecycle state machine. */
  predicate Transition(from: RecordState, to: RecordState) {
    || (from == New && to == Downloaded)
    || (from == New && to == Failed)
    || (from == Downloaded && to == Filtered)
  }

  /** `to` is reachable from `from` by zero or more transitions. */
  predicate Advances(from: RecordState, to: RecordState) {
    from == to || Transition(from, to) || (from == New && to == Filtered)
  }

  predicate Terminal(st: RecordState) {
    st == Filtered || st == Failed
  }

  /** `r'` is a later version of `r`: same identity, state moved forward. */
  predicate Evolves(r: ImageRecord, r': ImageRecord) {
    r'.name == r.name && r'.url == r.url && Advances(r.state, r'.state)
  }

  /** Every record of `b` is a later version of the record at the same row of `a`. */
  predicate ImagesEvolve(a: seq<ImageRecord>, b: seq<ImageRecord>) {
    |a| == |b| && forall i :: 0 <= i < |a| ==> Evolves(a[i], b[i])
  }

  /** `Advances` is the reflexive-transitive closure of `Transition`: it holds
      exactly for the empty path and for paths of one or two edges, and no
      longer path exists. */
  lemma AdvancesIsClosure(a: RecordState, c: RecordState)
    ensures Advances(a, c) <==>
            a == c || Transition(a, c) || exists b: RecordState :: Transition(a, b) && Transition(b, c)
    ensures forall b: RecordState, b': RecordState :: Transition(a, b) && Transition(b, b') ==> !Transition(b', c)
  {
    if a == New && c == Filtered {
      assert Transition(New, Downloaded) && Transition(Downloaded, Filtered);
    }
  }

  /** Terminal states have no way out: once filtered or failed, always so. */
  lemma TerminalIsFinal(a: RecordState, b: RecordState)
    requires Terminal(a) && Advances(a, b)
    ensures b == a
  {
  }

  lemma ImagesEvolveTransitive(a: seq<ImageRecord>, b: seq<ImageRecord>, c: seq<ImageRecord>)
    requires ImagesEvolve(a, b) && ImagesEvolve(b, c)
    ensures ImagesEvolve(a, c)
  {
  }

  /** What `Data(contentsOf:)` returns for the record's URL. For fetched bytes,
      `decoded` is what `UIImage(data:)` makes of them. */
  datatype FetchOutcome = FetchError | Fetched(data: seq<bv8>, decoded: Option<Image>)

  /** The body of a download operation, given the cancellation flag it sees
      before fetching and after fetching. */
  function DownloadMain(r: ImageRecord, cancelledBeforeFetch: bool, fetch: FetchOutcome,
                        cancelledAfterFetch: bool): (r': ImageRecord)
    ensures r'.name == r.name && r'.url == r.url
    // a cancelled download, or one whose fetch failed, leaves the record untouched,
    // so a record that was new stays new and can be downloaded again later
    ensures cancelledBeforeFetch || fetch.FetchError? || cancelledAfterFetch ==> r' == r
    // an uncancelled download whose fetch produced bytes always commits a result
    ensures !cancelledBeforeFetch && fetch.Fetched? && !cancelledAfterFetch ==>
              if |fetch.data| == 0 then r'.state == Failed && r'.image == Some(FailedImage)
              else r'.state == Downloaded && r'.image == fetch.decoded
    // started on a new record, the download follows the state machine
    ensures r.state == New ==> r' == r || Transition(r.state, r'.state)
  {
    if cancelledBeforeFetch then r
    else if fetch.FetchError? then r
    else if cancelledAfterFetch then r
    else if |fetch.data| == 0 then r.(image := Some(FailedImage), state := Failed)
    else r.(image := fetch.decoded, state := Downloaded)
  }

  /** The Core Image sepia pipeline applied to one image: whether PNG data can
      be obtained, whether the `CISepiaTone` filter exists, and what rendering
      its output yields. The pixel work itself is not modelled. */
  datatype SepiaPipeline = SepiaPipeline(pngData: bool, filterAvailable: bool, rendered: Option<Image>)

  /** `applySepiaFilter`, with the cancellation flag it sees after preparing
      the input image and after configuring the filter. */
  function ApplySepiaFilter(p: SepiaPipeline, cancelledAfterInput: bool, cancelledAfterSetup: bool): (out: Option<Image>)
    ensures cancelledAfterInput || cancelledAfterSetup ==> out == None
    ensures out.Some? <==> p.pngData && p.filterAvailable && p.rendered.Some? && !cancelledAfterInput && !cancelledAfterSetup
    ensures out.Some? ==> out == p.rendered
  {
    if !p.pngData then None
    else if cancelledAfterInput then None
    else if !p.filterAvailable then None
    else if cancelledAfterSetup then None
    else p.rendered
  }

  /** The body of a filtration operation, given the cancellation flag it sees
      on entry and at the two checkpoints inside `applySepiaFilter`. */
  function FilterMain(r: ImageRecord, cancelledAtStart: bool, p: SepiaPipeline,
                      cancelledAfterInput: bool, cancelledAfterSetup: bool): (r': ImageRecord)
    // only a downloaded record is ever changed: new, filtered and failed ones are left alone
    ensures r.state != Downloaded ==> r' == r
    ensures cancelledAtStart ==> r' == r
    // a change is always the step to filtered, with the pipeline's rendering
    ensures r' != r ==> r.state == Downloaded && r'.state == Filtered && r'.image == p.rendered
    // a record that stays downloaded is untouched, so filtration may be tried again
    ensures r'.state == Downloaded ==> r' == r
    ensures r'.state == Filtered <==>
              r.state == Filtered ||
              (r.state == Downloaded && !cancelledAtStart && r.image.Some? &&
               ApplySepiaFilter(p, cancelledAfterInput, cancelledAfterSetup).Some?)
    ensures Evolves(r, r')
  {
    if cancelledAtStart then r
    else if r.state != Downloaded then r
    else if r.image.None? then r
    else
      match ApplySepiaFilter(p, cancelledAfterInput, cancelledAfterSetup)
      case None => r
      case Some(img) => r.(image := Some(img), state := Filtered)
  }
}

=== FILE: scheduler.dfy ===
/** The list controller's scheduling logic: dispatching a row to the stage its
    record needs, the completion of operations, suspension while scrolling,
    and the reconciliation of in-flight work with the visible rows.

    All of it runs on the main thread and is modelled as a state machine over
    `Controller`. An operation's body and then its completion block run on a
    background thread; each is one step here (`RunBody`, `CompleteRunning`),
    so main-thread events, a cancellation among them, may run in between. The
    block the completion block schedules with `DispatchQueue.main.async` is a
    further step (`RunMainBlock`). Row reloads are recorded in `reloadedRows`. */
module Scheduler {
  import opened Records
  import opened Operations

  /** A block waiting on the main dispatch queue, scheduled by the completion
      of operation `id`: it removes `key` from `stage`'s ledger and reloads the row. */
  datatype MainBlock = MainBlock(stage: Stage, key: Key, id: TaskId)

  datatype Controller = Controller(
    images: seq<ImageRecord>,
    pending: PendingOperations,
    nextId: TaskId,
    mainQueue: seq<MainBlock>,
    reloadedRows: seq<Key>)

  /** The controller once the manifest has been decoded: one new record per
      entry, in manifest order, and no work anywhere. */
  function Load(manifest: seq<(string, string)>): (c: Controller)
    ensures |c.images| == |manifest|
    ensures forall i :: 0 <= i < |manifest| ==>
              c.images[i].name == manifest[i].0 && c.images[i].url == manifest[i].1 &&
              c.images[i].state == New && c.images[i].image == Some(PlaceholderImage)
    ensures InFlight(c.pending) == {} && c.mainQueue == [] && c.reloadedRows == []
    ensures Valid(c)
  {
    var images := seq(|manifest|, i requires 0 <= i < |manifest| => NewRecord(manifest[i].0, manifest[i].1));
    var c := Controller(images, NewPendingOperations(), 0, [], []);
    assert StageValid(c, Download) && StageValid(c, Filtration);
    c
  }

  // ---------------------------------------------------------------------------
  // The invariant of reachable controllers
  // ---------------------------------------------------------------------------

  /** Operation `t` is the one the ledger `m` records for its row. */
  predicate Owns(m: map<Key, TaskId>, t: Task) {
    t.key in m && m[t.key] == t.id
  }

  /** Identities of the operations of `stage` whose main-queue blocks are pending. */
  function BlockIds(blocks: seq<MainBlock>, stage: Stage): set<TaskId> {
    set b | b in blocks && b.stage == stage :: b.id
  }

  /** The bookkeeping of one stage is coherent: every uncancelled operation in
      the queue is the one its row's ledger entry records, operations are
      queued in the order their identities were issued, ledger entries name
      distinct operations, and every operation whose main-queue block is
      pending is older than all queued ones. `rows` is the number of records
      and `nextId` the next identity to be issued. */
  ghost predicate Coherent(q: OperationQueue, m: map<Key, TaskId>, rows: nat, nextId: TaskId, done: set<TaskId>) {
    && q.running <= MaxConcurrentOperationCount && q.running <= |q.tasks|
    && (q.bodyDone ==> 0 < q.running)
    && (forall k :: k in m ==> k < rows && m[k] < nextId)
    && (forall k1, k2 :: k1 in m && k2 in m && m[k1] == m[k2] ==> k1 == k2)
    && (forall i :: 0 <= i < |q.tasks| ==> q.tasks[i].key < rows && q.tasks[i].id < nextId)
    && (forall i, j :: 0 <= i < j < |q.tasks| ==> q.tasks[i].id < q.tasks[j].id)
    && (forall i :: 0 <= i < |q.tasks| && !q.tasks[i].cancelled ==> Owns(m, q.tasks[i]))
    && (forall d, i :: d in done && 0 <= i < |q.tasks| ==> d < q.tasks[i].id)
  }

  ghost predicate StageValid(c: Controller, stage: Stage) {
    Coherent(QueueOf(c.pending, stage), InProgress(c.pending, stage), |c.images|, c.nextId, BlockIds(c.mainQueue, stage))
  }

  /** Every uncancelled download whose body has not yet run is for a record
      that is still new. */
  ghost predicate DownloadsOnNew(c: Controller) {
    var q := c.pending.downloadQueue;
    forall i :: 0 <= i < |q.tasks| && !q.tasks[i].cancelled && q.tasks[i].key < |c.images| && !(i == 0 && q.bodyDone) ==>
      c.images[q.tasks[i].key].state == New
  }

  /** Every ledger entry of `stage` names work that still exists: an
      uncancelled queued operation of its row, or an operation whose
      main-queue block, which removes the entry, is pending. With `Coherent`
      this makes the ledger hold exactly the rows with work in flight; an
      entry never outlives its operation. */
  ghost predicate Accounted(c: Controller, stage: Stage) {
    var m := InProgress(c.pending, stage);
    var q := QueueOf(c.pending, stage);
    forall k :: k in m ==>
      (exists i :: 0 <= i < |q.tasks| && q.tasks[i] == Task(m[k], k, false)) ||
      MainBlock(stage, k, m[k]) in c.mainQueue
  }

  ghost predicate Valid(c: Controller) {
    && StageValid(c, Download)
    && StageValid(c, Filtration)
    && (forall b :: b in c.mainQueue ==> b.id < c.nextId)
    && DownloadsOnNew(c)
    && Accounted(c, Download)
    && Accounted(c, Filtration)
  }

  lemma ValidStages(c: Controller, stage: Stage)
    requires Valid(c)
    ensures StageValid(c, stage) && StageValid(c, Other(stage))
  {
    match stage { case Download => case Filtration => }
  }

  lemma StagesValid(c: Controller, stage: Stage)
    requires StageValid(c, stage) && StageValid(c, Other(stage))
    ensures StageValid(c, Download) && StageValid(c, Filtration)
  {
    match stage { case Download => case Filtration => }
  }

  /** Coherence survives more rows, later identities and fewer pending blocks. */
  lemma CoherentWeaken(q: OperationQueue, m: map<Key, TaskId>, rows: nat, nextId: TaskId, done: set<TaskId>,
                       rows': nat, nextId': TaskId, done': set<TaskId>)
    requires Coherent(q, m, rows, nextId, done)
    requires rows <= rows' && nextId <= nextId' && done' <= done
    ensures Coherent(q, m, rows', nextId', done')
  {
  }

  /** Submitting a fresh operation for a row without one keeps coherence. */
  lemma CoherentAdd(q: OperationQueue, m: map<Key, TaskId>, rows: nat, nextId: TaskId, done: set<TaskId>, k: Key)
    requires Coherent(q, m, rows, nextId, done)
    requires k < rows && k !in m && forall d :: d in done ==> d < nextId
    ensures Coherent(AddOperation(q, Task(nextId, k, false)), m[k := nextId], rows, nextId + 1, done)
  {
    var q' := AddOperation(q, Task(nextId, k, false));
    var m' := m[k := nextId];
    forall i | 0 <= i < |q'.tasks| && !q'.tasks[i].cancelled
      ensures Owns(m', q'.tasks[i])
    {
      if i < |q.tasks| {
        assert q'.tasks[i] == q.tasks[i];
        assert Owns(m, q.tasks[i]);
      }
    }
  }

  /** The running operation leaving the queue keeps coherence; if it was not
      cancelled its block joins the pending ones. */
  lemma CoherentFinish(q: OperationQueue, m: map<Key, TaskId>, rows: nat, nextId: TaskId, done: set<TaskId>)
    requires Coherent(q, m, rows, nextId, done) && 0 < q.running
    ensures Coherent(FinishHead(q), m, rows, nextId, done + {q.tasks[0].id})
  {
    var q' := FinishHead(q);
    forall i | 0 <= i < |q'.tasks|
      ensures q'.tasks[i] == q.tasks[i + 1]
    {
    }
  }

  /** The only uncancelled operation of its row: no other queued operation
      for the same row is uncancelled. */
  lemma OnlyLiveOperation(q: OperationQueue, m: map<Key, TaskId>, rows: nat, nextId: TaskId, done: set<TaskId>, i: nat, j: nat)
    requires Coherent(q, m, rows, nextId, done)
    requires i < |q.tasks| && j < |q.tasks| && i != j
    requires !q.tasks[i].cancelled && !q.tasks[j].cancelled
    ensures q.tasks[i].key != q.tasks[j].key
  {
    assert Owns(m, q.tasks[i]) && Owns(m, q.tasks[j]);
    if i < j {
      assert q.tasks[i].id < q.tasks[j].id;
    } else {
      assert q.tasks[j].id < q.tasks[i].id;
    }
  }

  /** Removing the entry of an operation whose block is pending keeps coherence. */
  lemma CoherentRemove(q: OperationQueue, m: map<Key, TaskId>, rows: nat, nextId: TaskId, done: set<TaskId>, k: Key, id: TaskId)
    requires Coherent(q, m, rows, nextId, done)
    requires id in done && k in m && m[k] == id
    ensures Coherent(q, m - {k}, rows, nextId, done)
  {
    forall i | 0 <= i < |q.tasks| && !q.tasks[i].cancelled
      ensures Owns(m - {k}, q.tasks[i])
    {
      assert Owns(m, q.tasks[i]);
      assert id < q.tasks[i].id;
    }
  }

  /** No row ever has two uncancelled operations in the same stage. */
  lemma NoDuplicateLiveOperation(c: Controller, stage: Stage, i: nat, j: nat)
    requires Valid(c)
    requires i < j < |QueueOf(c.pending, stage).tasks|
    requires !QueueOf(c.pending, stage).tasks[i].cancelled && !QueueOf(c.pending, stage).tasks[j].cancelled
    ensures QueueOf(c.pending, stage).tasks[i].key != QueueOf(c.pending, stage).tasks[j].key
  {
    ValidStages(c, stage);
    OnlyLiveOperation(QueueOf(c.pending, stage), InProgress(c.pending, stage), |c.images|, c.nextId,
                      BlockIds(c.mainQueue, stage), i, j);
  }

  lemma BlockIdsAppend(blocks: seq<MainBlock>, b: MainBlock, stage: Stage)
    ensures BlockIds(blocks + [b], stage) == BlockIds(blocks, stage) + (if b.stage == stage then {b.id} else {})
  {
    var l := BlockIds(blocks + [b], stage);
    var r := BlockIds(blocks, stage) + (if b.stage == stage then {b.id} else {});
    forall d | d in l ensures d in r {
      var b' :| b' in blocks + [b] && b'.stage == stage && b'.id == d;
      if b' != b { assert b' in blocks; }
    }
    forall d | d in r ensures d in l {
      if d in BlockIds(blocks, stage) {
        var b' :| b' in blocks && b'.stage == stage && b'.id == d;
        assert b' in blocks + [b];
      } else {
        assert b in blocks + [b];
      }
    }
  }

  lemma BlockIdsTail(blocks: seq<MainBlock>, stage: Stage)
    requires |blocks| > 0
    ensures BlockIds(blocks[1..], stage) <= BlockIds(blocks, stage)
    ensures blocks[0].stage == stage ==> blocks[0].id in BlockIds(blocks, stage)
  {
    forall d | d in BlockIds(blocks[1..], stage) ensures d in BlockIds(blocks, stage) {
      var b :| b in blocks[1..] && b.stage == stage && b.id == d;
      assert b in blocks;
    }
    assert blocks[0] in blocks;
  }

  lemma BlockIdsBelow(c: Controller, stage: Stage)
    requires forall b :: b in c.mainQueue ==> b.id < c.nextId
    ensures forall d :: d in BlockIds(c.mainQueue, stage) ==> d < c.nextId
  {
    forall d | d in BlockIds(c.mainQueue, stage) ensures d < c.nextId {
      var b :| b in c.mainQueue && b.stage == stage && b.id == d;
    }
  }

  // ---------------------------------------------------------------------------
  // Dispatch of one row
  // ---------------------------------------------------------------------------

  /** `c'` is `c` after asking `stage` to work on row `k`: if the row already
      has an operation in that stage nothing changes; otherwise exactly one
      fresh, uncancelled operation for `k` joins the end of the stage's queue
      and becomes the row's ledger entry. Nothing else changes. */
  ghost predicate AddsOperation(c: Controller, c': Controller, stage: Stage, k: Key) {
    var m := InProgress(c.pending, stage);
    var m' := InProgress(c'.pending, stage);
    var q := QueueOf(c.pending, stage);
    var q' := QueueOf(c'.pending, stage);
    && (k in m ==> c' == c)
    && m'.Keys == m.Keys + {k}
    && (forall j :: j in m ==> m'[j] == m[j])
    && (k !in m ==> m'[k] >= c.nextId && q'.tasks == q.tasks + [Task(m'[k], k, false)])
    && q'.running == q.running && q'.isSuspended == q.isSuspended && q'.bodyDone == q.bodyDone
    && InProgress(c'.pending, Other(stage)) == InProgress(c.pending, Other(stage))
    && QueueOf(c'.pending, Other(stage)) == QueueOf(c.pending, Other(stage))
    && c'.images == c.images && c'.mainQueue == c.mainQueue && c'.reloadedRows == c.reloadedRows
    && c'.nextId >= c.nextId
  }

  /** Submits a fresh operation for row `k` to `stage` and records it. */
  function Submit(c: Controller, stage: Stage, k: Key): (c': Controller)
    requires k !in InProgress(c.pending, stage)
    ensures AddsOperation(c, c', stage, k)
    ensures InProgress(c'.pending, stage)[k] == c.nextId && c'.nextId == c.nextId + 1
  {
    var t := Task(c.nextId, k, false);
    var m := InProgress(c.pending, stage);
    c.(pending := UpdateStage(c.pending, stage, m[k := c.nextId], AddOperation(QueueOf(c.pending, stage), t)),
       nextId := c.nextId + 1)
  }

  /** `startDownload`: does nothing when the row already has a download. */
  function StartDownload(c: Controller, k: Key): (c': Controller)
    ensures AddsOperation(c, c', Download, k)
    ensures k in InProgress(c'.pending, Download)
  {
    if k in c.pending.downloadsInProgress then c else Submit(c, Download, k)
  }

  /** `startFiltration`: does nothing when the row already has a filtration. */
  function StartFiltration(c: Controller, k: Key): (c': Controller)
    ensures AddsOperation(c, c', Filtration, k)
    ensures k in InProgress(c'.pending, Filtration)
  {
    if k in c.pending.filtrationsInProgress then c else Submit(c, Filtration, k)
  }

  /** `startOperation`: a new record goes to download, a downloaded one to
      filtration; filtered and failed records need nothing. */
  function StartOperation(c: Controller, k: Key): (c': Controller)
    requires k < |c.images|
    ensures c.images[k].state == New ==> AddsOperation(c, c', Download, k) && k in InProgress(c'.pending, Download)
    ensures c.images[k].state == Downloaded ==> AddsOperation(c, c', Filtration, k) && k in InProgress(c'.pending, Filtration)
    ensures Terminal(c.images[k].state) ==> c' == c
  {
    match c.images[k].state
    case New => StartDownload(c, k)
    case Downloaded => StartFiltration(c, k)
    case Filtered => c
    case Failed => c
  }

  lemma SubmitValid(c: Controller, stage: Stage, k: Key)
    requires Valid(c) && k < |c.images| && k !in InProgress(c.pending, stage)
    requires stage == Download ==> c.images[k].state == New
    ensures Valid(Submit(c, stage, k))
  {
    var c' := Submit(c, stage, k);
    var o := Other(stage);
    ValidStages(c, stage);
    BlockIdsBelow(c, stage);
    CoherentAdd(QueueOf(c.pending, stage), InProgress(c.pending, stage), |c.images|, c.nextId,
                BlockIds(c.mainQueue, stage), k);
    assert StageValid(c', stage);
    CoherentWeaken(QueueOf(c.pending, o), InProgress(c.pending, o), |c.images|, c.nextId, BlockIds(c.mainQueue, o),
                   |c.images|, c'.nextId, BlockIds(c.mainQueue, o));
    assert StageValid(c', o);
    StagesValid(c', stage);
    SubmitAccounted(c, stage, k, Download);
    SubmitAccounted(c, stage, k, Filtration);
    var dq := c.pending.downloadQueue;
    var dq' := c'.pending.downloadQueue;
    forall i | 0 <= i < |dq'.tasks| && !dq'.tasks[i].cancelled && dq'.tasks[i].key < |c'.images| && !(i == 0 && dq'.bodyDone)
      ensures c'.images[dq'.tasks[i].key].state == New
    {
      if i < |dq.tasks| {
        assert dq'.tasks[i] == dq.tasks[i];
      }
    }
  }

  /** A fresh operation is queued together with its entry, and the other
      entries keep theirs. */
  lemma SubmitAccounted(c: Controller, stage: Stage, k: Key, st: Stage)
    requires Accounted(c, st) && k !in InProgress(c.pending, stage)
    ensures Accounted(Submit(c, stage, k), st)
  {
    var c' := Submit(c, stage, k);
    var m := InProgress(c.pending, st);
    var m' := InProgress(c'.pending, st);
    var q := QueueOf(c.pending, st);
    var q' := QueueOf(c'.pending, st);
    forall j | j in m'
      ensures (exists i :: 0 <= i < |q'.tasks| && q'.tasks[i] == Task(m'[j], j, false)) ||
              MainBlock(st, j, m'[j]) in c'.mainQueue
    {
      if st == stage && j == k {
        assert q'.tasks[|q'.tasks| - 1] == Task(m'[j], j, false);
      } else {
        assert j in m && m'[j] == m[j];
        if exists i :: 0 <= i < |q.tasks| && q.tasks[i] == Task(m[j], j, false) {
          var i :| 0 <= i < |q.tasks| && q.tasks[i] == Task(m[j], j, false);
          assert q'.tasks[i] == q.tasks[i];
        }
      }
    }
  }

  lemma StartOperationValid(c: Controller, k: Key)
    requires Valid(c) && k < |c.images|
    ensures Valid(StartOperation(c, k))
  {
    match c.images[k].state {
      case New =>
        if k !in c.pending.downloadsInProgress { SubmitValid(c, Download, k); }
      case Downloaded =>
        if k !in c.pending.filtrationsInProgress { SubmitValid(c, Filtration, k); }
      case Filtered =>
      case Failed =>
    }
  }

  // ---------------------------------------------------------------------------
  // Completion
  // ---------------------------------------------------------------------------

  /** The completion block of operation `t`, run on the operation's thread:
      a cancelled operation's completion does nothing at all; otherwise it
      schedules the ledger update and row reload on the main queue. */
  function CompletionBlock(c: Controller, stage: Stage, t: Task): (c': Controller)
    ensures t.cancelled ==> c' == c
    ensures !t.cancelled ==> c'.mainQueue == c.mainQueue + [MainBlock(stage, t.key, t.id)]
    ensures c'.images == c.images && c'.pending == c.pending && c'.nextId == c.nextId
    ensures c'.reloadedRows == c.reloadedRows
  {
    if t.cancelled then c
    else c.(mainQueue := c.mainQueue + [MainBlock(stage, t.key, t.id)])
  }

  /** `stage`'s queue has a running operation, for a record that exists,
      that has not yet run its body. */
  predicate CanRunBody(c: Controller, stage: Stage) {
    var q := QueueOf(c.pending, stage);
    0 < q.running <= |q.tasks| && !q.bodyDone && q.tasks[0].key < |c.images|
  }

  /** The running operation of `stage` executes `main` against its record.
      `fetch` and `sepia` are the outcomes of the I/O and of the image
      pipeline; the operation observes its cancellation flag, as it stands
      when the body runs, at every checkpoint. */
  function RunBody(c: Controller, stage: Stage, fetch: FetchOutcome, sepia: SepiaPipeline): (c': Controller)
    requires CanRunBody(c, stage)
    ensures var q := QueueOf(c.pending, stage);
            var t := q.tasks[0];
            && QueueOf(c'.pending, stage) == q.(bodyDone := true)
            // a cancelled operation's body returns at its first checkpoint
            && (t.cancelled ==> c'.images == c.images)
            // only the operation's own record may change
            && |c'.images| == |c.images|
            && (forall i :: 0 <= i < |c.images| && i != t.key ==> c'.images[i] == c.images[i])
            && c'.images[t.key].name == c.images[t.key].name && c'.images[t.key].url == c.images[t.key].url
    // the filtration body never moves a record backwards; the download body
    // does not look at the state, so it only follows the lifecycle on a new record
    ensures var t := QueueOf(c.pending, stage).tasks[0];
            stage == Filtration || c.images[t.key].state == New ==> Evolves(c.images[t.key], c'.images[t.key])
    ensures forall st: Stage :: InProgress(c'.pending, st) == InProgress(c.pending, st)
    ensures QueueOf(c'.pending, Other(stage)) == QueueOf(c.pending, Other(stage))
    ensures c'.mainQueue == c.mainQueue && c'.reloadedRows == c.reloadedRows && c'.nextId == c.nextId
  {
    var q := QueueOf(c.pending, stage);
    var t := q.tasks[0];
    var r := c.images[t.key];
    var r' := match stage
      case Download => DownloadMain(r, t.cancelled, fetch, t.cancelled)
      case Filtration => FilterMain(r, t.cancelled, sepia, t.cancelled, t.cancelled);
    c.(images := c.images[t.key := r'],
       pending := UpdateStage(c.pending, stage, InProgress(c.pending, stage), q.(bodyDone := true)))
  }

  /** `stage`'s running operation has returned from its body. */
  predicate CanComplete(c: Controller, stage: Stage) {
    var q := QueueOf(c.pending, stage);
    q.bodyDone && 0 < q.running <= |q.tasks|
  }

  /** The running operation of `stage` runs its completion block, which sees
      the cancellation flag as it stands now, and leaves the queue. */
  function CompleteRunning(c: Controller, stage: Stage): (c': Controller)
    requires CanComplete(c, stage)
    ensures var q := QueueOf(c.pending, stage);
            var t := q.tasks[0];
            && QueueOf(c'.pending, stage).tasks == q.tasks[1..]
            && QueueOf(c'.pending, stage).running == q.running - 1
            && QueueOf(c'.pending, stage).isSuspended == q.isSuspended
            && !QueueOf(c'.pending, stage).bodyDone
            // a cancelled operation leaves no trace besides leaving the queue
            && (t.cancelled ==> c'.mainQueue == c.mainQueue)
            && (!t.cancelled ==> c'.mainQueue == c.mainQueue + [MainBlock(stage, t.key, t.id)])
    // the ledgers are only updated later, on the main queue
    ensures forall st: Stage :: InProgress(c'.pending, st) == InProgress(c.pending, st)
    ensures QueueOf(c'.pending, Other(stage)) == QueueOf(c.pending, Other(stage))
    ensures c'.images == c.images && c'.reloadedRows == c.reloadedRows && c'.nextId == c.nextId
  {
    var q := QueueOf(c.pending, stage);
    var c1 := c.(pending := UpdateStage(c.pending, stage, InProgress(c.pending, stage), FinishHead(q)));
    CompletionBlock(c1, stage, q.tasks[0])
  }

  /** The oldest block on the main queue runs. A block only acts on the
      ledger entry of the operation that scheduled it: if the row's entry is
      still that operation, the row leaves the stage's ledger; if the entry
      was cancelled away (and possibly replaced by a newer operation) the
      ledger is left alone. Either way the row is reloaded. */
  function RunMainBlock(c: Controller): (c': Controller)
    requires |c.mainQueue| > 0
    ensures var b := c.mainQueue[0];
            var m := InProgress(c.pending, b.stage);
            && c'.mainQueue == c.mainQueue[1..]
            && (Owns(m, Task(b.id, b.key, false)) ==> InProgress(c'.pending, b.stage) == m - {b.key})
            && (!Owns(m, Task(b.id, b.key, false)) ==> InProgress(c'.pending, b.stage) == m)
            && InProgress(c'.pending, Other(b.stage)) == InProgress(c.pending, Other(b.stage))
            && c'.reloadedRows == c.reloadedRows + [b.key]
    ensures forall st: Stage :: QueueOf(c'.pending, st) == QueueOf(c.pending, st)
    ensures c'.images == c.images && c'.nextId == c.nextId
  {
    var b := c.mainQueue[0];
    var m := InProgress(c.pending, b.stage);
    var c1 := c.(mainQueue := c.mainQueue[1..], reloadedRows := c.reloadedRows + [b.key]);
    if b.key in m && m[b.key] == b.id then
      c1.(pending := UpdateStage(c.pending, b.stage, m - {b.key}, QueueOf(c.pending, b.stage)))
    else c1
  }

  lemma RunBodyValid(c: Controller, stage: Stage, fetch: FetchOutcome, sepia: SepiaPipeline)
    requires Valid(c) && CanRunBody(c, stage)
    ensures Valid(RunBody(c, stage, fetch, sepia))
    ensures ImagesEvolve(c.images, RunBody(c, stage, fetch, sepia).images)
  {
    var c' := RunBody(c, stage, fetch, sepia);
    ValidStages(c, stage);
    assert StageValid(c', stage);
    assert StageValid(c', Other(stage));
    StagesValid(c', stage);
    match stage {
      case Download => RunDownloadBodyOnNew(c, fetch, sepia);
      case Filtration => RunFiltrationBodyOnNew(c, fetch, sepia);
    }
  }

  /** The download body only changes its own record, which is new if the
      download is live; no other live download is for that record. */
  lemma RunDownloadBodyOnNew(c: Controller, fetch: FetchOutcome, sepia: SepiaPipeline)
    requires Valid(c) && CanRunBody(c, Download)
    ensures DownloadsOnNew(RunBody(c, Download, fetch, sepia))
    ensures ImagesEvolve(c.images, RunBody(c, Download, fetch, sepia).images)
  {
    var c' := RunBody(c, Download, fetch, sepia);
    var dq := c.pending.downloadQueue;
    var dq' := c'.pending.downloadQueue;
    var t := dq.tasks[0];
    assert StageValid(c, Download);
    forall i | 0 <= i < |dq'.tasks| && !dq'.tasks[i].cancelled && dq'.tasks[i].key < |c'.images| && !(i == 0 && dq'.bodyDone)
      ensures c'.images[dq'.tasks[i].key].state == New
    {
      if !t.cancelled {
        OnlyLiveOperation(dq, c.pending.downloadsInProgress, |c.images|, c.nextId,
                          BlockIds(c.mainQueue, Download), 0, i);
      }
    }
  }

  /** The filtration body only changes a downloaded record, and live downloads
      are on new records. */
  lemma RunFiltrationBodyOnNew(c: Controller, fetch: FetchOutcome, sepia: SepiaPipeline)
    requires Valid(c) && CanRunBody(c, Filtration)
    ensures DownloadsOnNew(RunBody(c, Filtration, fetch, sepia))
    ensures ImagesEvolve(c.images, RunBody(c, Filtration, fetch, sepia).images)
  {
    var c' := RunBody(c, Filtration, fetch, sepia);
    var t := c.pending.filtrationQueue.tasks[0];
    var r := c.images[t.key];
    var dq := c.pending.downloadQueue;
    assert dq == c'.pending.downloadQueue;
    forall i | 0 <= i < |dq.tasks| && !dq.tasks[i].cancelled && dq.tasks[i].key == t.key && !(i == 0 && dq.bodyDone)
      ensures c'.images[t.key] == r
    {
      assert r.state == New;
    }
  }

  lemma CompleteRunningValid(c: Controller, stage: Stage)
    requires Valid(c) && CanComplete(c, stage)
    ensures Valid(CompleteRunning(c, stage))
  {
    var c' := CompleteRunning(c, stage);
    var o := Other(stage);
    var q := QueueOf(c.pending, stage);
    var t := q.tasks[0];
    var m := InProgress(c.pending, stage);
    var done := BlockIds(c.mainQueue, stage);
    ValidStages(c, stage);
    CoherentFinish(q, m, |c.images|, c.nextId, done);
    if !t.cancelled {
      BlockIdsAppend(c.mainQueue, MainBlock(stage, t.key, t.id), stage);
      BlockIdsAppend(c.mainQueue, MainBlock(stage, t.key, t.id), o);
    }
    CoherentWeaken(FinishHead(q), m, |c.images|, c.nextId, done + {t.id},
                   |c.images|, c.nextId, BlockIds(c'.mainQueue, stage));
    assert StageValid(c', stage);
    CoherentWeaken(QueueOf(c.pending, o), InProgress(c.pending, o), |c.images|, c.nextId, BlockIds(c.mainQueue, o),
                   |c.images|, c.nextId, BlockIds(c'.mainQueue, o));
    assert StageValid(c', o);
    StagesValid(c', stage);
    CompleteRunningOnNew(c, stage);
    CompleteRunningAccounted(c, stage, Download);
    CompleteRunningAccounted(c, stage, Filtration);
  }

  /** An uncancelled operation that leaves the queue leaves its block behind
      in its place; a cancelled one had no entry to account for. */
  lemma CompleteRunningAccounted(c: Controller, stage: Stage, st: Stage)
    requires CanComplete(c, stage) && Accounted(c, st)
    ensures Accounted(CompleteRunning(c, stage), st)
  {
    var c' := CompleteRunning(c, stage);
    var m := InProgress(c.pending, st);
    var q := QueueOf(c.pending, st);
    var q' := QueueOf(c'.pending, st);
    var t := QueueOf(c.pending, stage).tasks[0];
    forall j | j in m
      ensures (exists i :: 0 <= i < |q'.tasks| && q'.tasks[i] == Task(m[j], j, false)) ||
              MainBlock(st, j, m[j]) in c'.mainQueue
    {
      if MainBlock(st, j, m[j]) in c.mainQueue {
        assert c'.mainQueue == c.mainQueue || c'.mainQueue == c.mainQueue + [MainBlock(stage, t.key, t.id)];
      } else {
        var i :| 0 <= i < |q.tasks| && q.tasks[i] == Task(m[j], j, false);
        if st == stage {
          if i == 0 {
            assert MainBlock(st, j, m[j]) == c'.mainQueue[|c'.mainQueue| - 1];
          } else {
            assert q'.tasks[i - 1] == q.tasks[i];
          }
        } else {
          assert q' == q;
        }
      }
    }
  }

  /** A download whose completion runs is no longer exempt from being on a
      new record, and the downloads behind it never were. */
  lemma CompleteRunningOnNew(c: Controller, stage: Stage)
    requires Valid(c) && CanComplete(c, stage)
    ensures DownloadsOnNew(CompleteRunning(c, stage))
  {
    var c' := CompleteRunning(c, stage);
    if stage == Download {
      var dq := c.pending.downloadQueue;
      var dq' := c'.pending.downloadQueue;
      forall i | 0 <= i < |dq'.tasks| && !dq'.tasks[i].cancelled && dq'.tasks[i].key < |c'.images|
        ensures c'.images[dq'.tasks[i].key].state == New
      {
        assert dq'.tasks[i] == dq.tasks[i + 1];
      }
    } else {
      assert c'.pending.downloadQueue == c.pending.downloadQueue;
    }
  }

  lemma RunMainBlockValid(c: Controller)
    requires Valid(c) && |c.mainQueue| > 0
    ensures Valid(RunMainBlock(c))
  {
    var c' := RunMainBlock(c);
    var b := c.mainQueue[0];
    var stage := b.stage;
    var o := Other(stage);
    var q := QueueOf(c.pending, stage);
    var m := InProgress(c.pending, stage);
    var done := BlockIds(c.mainQueue, stage);
    ValidStages(c, stage);
    BlockIdsTail(c.mainQueue, stage);
    BlockIdsTail(c.mainQueue, o);
    if b.key in m && m[b.key] == b.id {
      CoherentRemove(q, m, |c.images|, c.nextId, done, b.key, b.id);
      CoherentWeaken(q, m - {b.key}, |c.images|, c.nextId, done, |c.images|, c.nextId, BlockIds(c'.mainQueue, stage));
    } else {
      CoherentWeaken(q, m, |c.images|, c.nextId, done, |c.images|, c.nextId, BlockIds(c'.mainQueue, stage));
    }
    assert StageValid(c', stage);
    CoherentWeaken(QueueOf(c.pending, o), InProgress(c.pending, o), |c.images|, c.nextId, BlockIds(c.mainQueue, o),
                   |c.images|, c.nextId, BlockIds(c'.mainQueue, o));
    assert StageValid(c', o);
    StagesValid(c', stage);
    assert forall b' :: b' in c'.mainQueue ==> b' in c.mainQueue;
    RunMainBlockAccounted(c, Download);
    RunMainBlockAccounted(c, Filtration);
  }

  /** A block that runs removes the entry it accounts for, unless the entry
      names another operation, which is accounted for by that operation. Every
      other block keeps its place in the main queue. */
  lemma RunMainBlockAccounted(c: Controller, st: Stage)
    requires |c.mainQueue| > 0 && Accounted(c, st)
    ensures Accounted(RunMainBlock(c), st)
  {
    var c' := RunMainBlock(c);
    var b := c.mainQueue[0];
    var m := InProgress(c.pending, st);
    var m' := InProgress(c'.pending, st);
    var q := QueueOf(c.pending, st);
    assert QueueOf(c'.pending, st) == q;
    forall j | j in m'
      ensures (exists i :: 0 <= i < |q.tasks| && q.tasks[i] == Task(m'[j], j, false)) ||
              MainBlock(st, j, m'[j]) in c'.mainQueue
    {
      assert j in m && m'[j] == m[j] by { match st { case Download => case Filtration => } }
      if MainBlock(st, j, m[j]) in c.mainQueue && !(exists i :: 0 <= i < |q.tasks| && q.tasks[i] == Task(m[j], j, false)) {
        // the running block would have removed this entry
        assert MainBlock(st, j, m[j]) != b;
        var n :| 0 <= n < |c.mainQueue| && c.mainQueue[n] == MainBlock(st, j, m[j]);
        assert c'.mainQueue[n - 1] == c.mainQueue[n];
      }
    }
  }

  // ---------------------------------------------------------------------------
  // Suspension
  // ---------------------------------------------------------------------------

  /** `suspendAllOperations`: both queues stop admitting operations; nothing
      is cancelled and the ledgers are untouched. */
  function SuspendAllOperations(c: Controller): (c': Controller)
    ensures forall st: Stage :: QueueOf(c'.pending, st).isSuspended
    ensures forall st: Stage :: InProgress(c'.pending, st) == InProgress(c.pending, st)
    ensures forall st: Stage :: QueueOf(c'.pending, st) == QueueOf(c.pending, st).(isSuspended := true)
    ensures c'.images == c.images && c'.mainQueue == c.mainQueue && c'.reloadedRows == c.reloadedRows
    ensures c'.nextId == c.nextId
  {
    c.(pending := SetSuspended(c.pending, true))
  }

  /** `resumeAllOperations`: both queues admit operations again. */
  function ResumeAllOperations(c: Controller): (c': Controller)
    ensures forall st: Stage :: !QueueOf(c'.pending, st).isSuspended
    ensures forall st: Stage :: InProgress(c'.pending, st) == InProgress(c.pending, st)
    ensures forall st: Stage :: QueueOf(c'.pending, st) == QueueOf(c.pending, st).(isSuspended := false)
    ensures c'.images == c.images && c'.mainQueue == c.mainQueue && c'.reloadedRows == c.reloadedRows
    ensures c'.nextId == c.nextId
  {
    c.(pending := SetSuspended(c.pending, false))
  }

  /** A suspended queue admits nothing, whatever it holds. */
  lemma SuspendedQueueAdmitsNothing(c: Controller, stage: Stage)
    ensures var c' := SuspendAllOperations(c);
            StartNext(QueueOf(c'.pending, stage)) == QueueOf(c'.pending, stage)
  {
  }

  /** The queue of `stage` admits its next operation. */
  function Admit(c: Controller, stage: Stage): (c': Controller)
    ensures var q := QueueOf(c.pending, stage);
            var q' := QueueOf(c'.pending, stage);
            && q'.tasks == q.tasks && q'.isSuspended == q.isSuspended
            && (q.isSuspended ==> q' == q)
            && (q'.running == q.running + 1 <==>
                  !q.isSuspended && q.running < MaxConcurrentOperationCount && q.running < |q.tasks|)
    ensures forall st: Stage :: InProgress(c'.pending, st) == InProgress(c.pending, st)
    ensures QueueOf(c'.pending, Other(stage)) == QueueOf(c.pending, Other(stage))
    ensures c'.images == c.images && c'.mainQueue == c.mainQueue && c'.reloadedRows == c.reloadedRows
    ensures c'.nextId == c.nextId
  {
    c.(pending := UpdateStage(c.pending, stage, InProgress(c.pending, stage), StartNext(QueueOf(c.pending, stage))))
  }

  lemma AdmitValid(c: Controller, stage: Stage)
    requires Valid(c)
    ensures Valid(Admit(c, stage))
  {
    var c' := Admit(c, stage);
    var o := Other(stage);
    ValidStages(c, stage);
    assert StageValid(c', stage);
    assert StageValid(c', o);
    StagesValid(c', stage);
  }

  lemma SuspensionValid(c: Controller)
    requires Valid(c)
    ensures Valid(SuspendAllOperations(c)) && Valid(ResumeAllOperations(c))
  {
    var c1 := SuspendAllOperations(c);
    var c2 := ResumeAllOperations(c);
    assert StageValid(c1, Download) && StageValid(c1, Filtration);
    assert StageValid(c2, Download) && StageValid(c2, Filtration);
  }
}
